=== FILE: README.md ===
# DCF valuation engine — Dafny model

This project models the valuation core of `dcf-from-link`, a tool that values a listed
company with a discounted-cash-flow (DCF) model. From a raw data bundle (the company
info record, the last price, and the income statement, balance sheet and cash-flow
statement) and the caller's macro inputs, the engine does the following:

- estimates an effective tax rate, the share count and net debt;
- builds a free-cash-flow (FCF) history and derives a starting growth rate from it;
- computes the costs of equity (CAPM) and of debt, the capital weights and the WACC;
- grows the FCF over the horizon, with growth fading linearly from the starting rate
  to the terminal rate;
- discounts each year, adds a Gordon-growth terminal value, and reports enterprise
  value, equity value, value per share and upside.

Two small companions are modelled as well:

- the financial-sector guardrail, which flags companies whose sector, industry or
  category mentions a financial-services keyword;
- the rupee unit helpers, which convert to and from crores.

Modules, one per file:

| file | module | models |
|---|---|---|
| `options.dfy` | `Options` | `Option` (None/NaN) and `Result` (raised error) |
| `reals.dfy` | `Reals` | powers, sums and means over exact reals |
| `units.dfy` | `Units` | `to_crores`, `from_crores` |
| `rawdata.dfy` | `RawData` | statement tables, info record, first-match lookups, dropping missing cells |
| `guardrail.dfy` | `BanksGuardrail` | `FINANCIAL_SECTOR_HINTS`, `looks_like_financial` |
| `extraction.dfy` | `Extraction` | `_estimate_tax_rate`, `_shares_out`, `_net_debt`, `_fcf_series`, `_historical_growth`, `_cost_of_equity`, `_cost_of_debt` |
| `capital.dfy` | `Capital` | market values, capital weights, WACC |
| `forecast.dfy` | `Forecast` | faded growth, the forecast loop, discount factors, terminal value, enterprise value |
| `dcf.dfy` | `Dcf` | `run_dcf` end to end, as a `Result` |

## How the source is represented

- **Numbers** are exact reals. A missing value (`NaN` or `None`) is `Option.None`; the
  one place where this differs from the source, a `NaN` price, is listed under "Left out".
- **Info record.** `info` holds numeric fields and text fields. An info field is
  *truthy* when it is present and non-zero. That is how the source's
  `if info.get(k)` tests behave on numbers.
- **Statements.** A statement is a map from line-item label to its row of period
  cells.
  - A statement is *empty* (pandas `DataFrame.empty`) when no row has a period.
  - Element-wise operations on two rows cover the periods both rows have. Rows of
    one statement have equal length, so nothing is lost there.
- **Square root.** `_historical_growth` raises a ratio to the power 1/2 when it has
  three or more present values. The model takes that square root as a parameter `sqrt`, and
  `GrowthCompoundsTwoPeriods` assumes of it only that it squares back.
- **Errors.** `run_dcf` fails in two places; each becomes an `Err`:
  - a horizon below one year indexes an empty forecast (`EmptyHorizon`);
  - a WACC of exactly -1 held as a plain Python float makes every discount factor a
    plain 0.0, so `cf / df` raises (`ZeroDiscountFactor`).
- **Plain float or numpy scalar.** The weights `E / V` and `D / V` are numpy scalars,
  because `V` comes from `np.nansum`. So the WACC is a plain float only when the
  known total `V` is 0 and both weights are the default constants 0.8 and 0.2
  (`Dcf.PlainFloatWacc`). At any other WACC of -1 the divisions go through numpy and
  give infinities or `NaN` instead of raising. The run then returns normally: its
  cash flows are forecast, and its present values, enterprise value, equity value
  and value per share are unavailable (`None`).
- **Quirks kept as written:**
  - The CapEx rule in `_fcf_series` *adds* |CapEx| to operating cash flow whenever
    any CapEx cell is negative. It subtracts |CapEx| only when no cell is negative.
  - Inside `_estimate_tax_rate` the fallback is always 0.25. The caller's
    `tax_rate_fallback` is used only when the income statement is empty.
  - Cells are taken by position as the code indexes them: the balance sheet's
    leading cell for cash and debt, and the last present cell of the FCF history as
    the base.
  - With no FCF history, a truthy price and an unknown share count make the
    forecast base unknown, and so the enterprise value too. `NaN` is truthy in
    Python, so `price * shares * 0.03` is `NaN`.
- **Docstring versus code.** The `_fcf_series` docstring describes FCF as operating
  cash flow minus CapEx. The code adds |CapEx| when any CapEx cell is negative, and
  the model follows the code.

## Model

| member | source | states |
|---|---|---|
| Units.ToCrores | src/dcf_valuations/utils/units.py:2-4 | an absent amount stays absent; a present amount becomes a value that is the amount when multiplied by 10^7 |
| Units.FromCrores | src/dcf_valuations/utils/units.py:6-7 | an absent amount stays absent; a present amount becomes a value that gives back the crores when divided by 10^7 |
| Units.ZeroIsPresent | src/dcf_valuations/utils/units.py:2-7 | a zero amount converts to zero in both directions: only an absent amount, never a zero one, gives an absent result |
| Units.RoundTrip | src/dcf_valuations/utils/units.py:2-7 | converting to crores and back, in either order, returns the input, absent included |
| Units.PreservesOrder | src/dcf_valuations/utils/units.py:2-7 | both conversions preserve the order of amounts |
| Units.PreservesSign | src/dcf_valuations/utils/units.py:2-7 | both conversions preserve sign and zero |
| BanksGuardrail.Contains | src/dcf_valuations/model/banks_guardrail.py:13 | substring test: true exactly when the keyword occurs at some position of the text |
| BanksGuardrail.Lower | src/dcf_valuations/model/banks_guardrail.py:9-11 | lower-casing keeps the length and maps each character on its own, A-Z to a-z and every other character unchanged |
| BanksGuardrail.LooksLikeFinancial | src/dcf_valuations/model/banks_guardrail.py:8-13 | flagged exactly when some keyword occurs in the lower-cased sector, industry and category joined by single spaces, an absent field read as empty |
| BanksGuardrail.SingleFieldSuffices | src/dcf_valuations/model/banks_guardrail.py:9-13 | a keyword in any one lower-cased field flags the company, whatever the other fields hold |
| BanksGuardrail.EmptyInfoIsNotFinancial | src/dcf_valuations/model/banks_guardrail.py:8-13 | a record with none of the three fields is not flagged |
| BanksGuardrail.BanksIsFinancial | src/dcf_valuations/model/banks_guardrail.py:4-13 | matching ignores case: sector "Banks" is flagged through the keyword "bank" |
| BanksGuardrail.NoHintWithoutBsu | src/dcf_valuations/model/banks_guardrail.py:4-6 | every keyword contains 'b', 's' or 'u', so a text without those characters contains no keyword |
| BanksGuardrail.InformationTechnologyIsNotFinancial | src/dcf_valuations/model/banks_guardrail.py:4-13 | sector "Information Technology" is not flagged |
| RawData.FirstMatch | src/dcf_valuations/model/dcf.py:41-44 | the first candidate label that the table has, and none exactly when the table has none of them |
| RawData.FindRow | src/dcf_valuations/model/dcf.py:41-49 | the row of the first candidate label the table has, and none exactly when it has none of them |
| RawData.FirstTruthy | src/dcf_valuations/model/dcf.py:61-64 | the value of the first truthy key, and none exactly when no key is truthy |
| RawData.Present | src/dcf_valuations/model/dcf.py:118 | dropping missing cells leaves at most as many values, none exactly when every cell is missing, and its last value is the row's last present cell |
| RawData.PresentPeriods | src/dcf_valuations/model/dcf.py:118 | the positions of the present cells: each holds a present cell, they increase, and every present cell's position is among them |
| RawData.PresentInRowOrder | src/dcf_valuations/model/dcf.py:118 | dropping missing cells keeps one value per present cell, in row order: value k is the cell at the k-th present position |
| RawData.PresentMembers | src/dcf_valuations/model/dcf.py:118 | dropping missing cells keeps exactly the present values |
| RawData.LastPresent | src/dcf_valuations/model/dcf.py:164 | the row's last present cell, and none exactly when every cell is missing |
| Extraction.KeptRatios | src/dcf_valuations/model/dcf.py:51-52 | every kept tax/pretax ratio lies in [0, 0.5], and none is kept exactly when no period has a defined ratio in that range |
| Extraction.KeptPeriodsFrom | src/dcf_valuations/model/dcf.py:51-52 | the periods from a given one on whose ratio is kept: each is kept, they increase, and every kept period is among them |
| Extraction.KeptRatiosInPeriodOrder | src/dcf_valuations/model/dcf.py:51-54 | from any period on, the kept ratios are those of the kept periods, one each, in period order |
| Extraction.KeptRatiosByPeriod | src/dcf_valuations/model/dcf.py:51-54 | over whole rows, kept ratio k is the tax/pretax ratio of the k-th kept period, so the mean is taken over the kept periods' ratios |
| Extraction.KeptRatiosMembers | src/dcf_valuations/model/dcf.py:51-52 | a value is kept exactly when some period has defined ratio equal to it in [0, 0.5]; infinite and undefined ratios are dropped |
| Extraction.EstimateTaxRate | src/dcf_valuations/model/dcf.py:35-57 | the rate lies in [0, 0.5]; it is 0.25 for an empty statement, a missing tax or pretax row, or no kept ratio; otherwise it is the mean of the kept ratios |
| Extraction.SharesOut | src/dcf_valuations/model/dcf.py:59-64 | the first truthy of sharesOutstanding, impliedSharesOutstanding, floatShares; unknown exactly when none is truthy |
| Extraction.LeadCellOrZero | src/dcf_valuations/model/dcf.py:71-80 | 0 when no candidate label is a row; the matched row's leading cell (possibly missing) when it has one; unavailable when the matched row has no period |
| Extraction.SheetNetDebt | src/dcf_valuations/model/dcf.py:68-82 | none for an empty sheet; otherwise known exactly when both leading cells are known (a missing row counting as 0), and then debt − cash |
| Extraction.InfoNetDebt | src/dcf_valuations/model/dcf.py:86-91 | known exactly when totalCash and totalDebt are both truthy, and then net debt plus cash is debt |
| Extraction.NetDebt | src/dcf_valuations/model/dcf.py:66-92 | the sheet's figure whenever it has one, else the info fallback: a non-empty sheet with neither row gives 0, with only a cash row 0 − cash, with only a debt row the debt; both leading cells present give debt − cash; an unknown result means neither source gave a figure |
| Extraction.CombineFcf | src/dcf_valuations/model/dcf.py:111 | the combined row covers the periods both rows have; a period is present exactly when both cells are, and then differs from OCF by \|CapEx\|, added or subtracted as chosen |
| Extraction.FcfSeries | src/dcf_valuations/model/dcf.py:94-115 | empty cash-flow statement gives no history; with OCF and CapEx rows each period is OCF + \|CapEx\| when any CapEx is negative, else OCF − \|CapEx\|, missing when either cell is; otherwise the income statement's Free Cash Flow row, else nothing |
| Extraction.GrowthOf | src/dcf_valuations/model/dcf.py:117-125 | 8% when fewer than two values remain or the window's first value is not positive |
| Extraction.HistoricalGrowth | src/dcf_valuations/model/dcf.py:117-120 | a history with fewer than two present values grows at 8% |
| Extraction.GrowthCompoundsOnePeriod | src/dcf_valuations/model/dcf.py:119-125 | with two values the rate compounds the first into the second over one period |
| Extraction.GrowthCompoundsTwoPeriods | src/dcf_valuations/model/dcf.py:119-125 | with three or more values the rate compounds the third-last into the last over two periods |
| Extraction.Beta | src/dcf_valuations/model/dcf.py:145 | beta is the info field when truthy, else 1, and never 0 |
| Extraction.CostOfEquity | src/dcf_valuations/model/dcf.py:127-128 | at beta 1 the cost is rf + ERP + size premium; with non-negative beta, ERP and size premium it is at least the risk-free rate |
| Extraction.CostOfEquityPremium | src/dcf_valuations/model/dcf.py:127-128 | the premium over the risk-free rate is beta × ERP + size premium; at beta 1, rf 7%, ERP 5.5% the cost lies in [12%, 14%], as the project's unit test expects |
| Extraction.CostOfDebt | src/dcf_valuations/model/dcf.py:130-136 | never below rf + 1%; with a positive yield it is the larger of rf + 1% and yield/100, otherwise rf + 2% |
| Capital.EquityValue | src/dcf_valuations/model/dcf.py:154 | known exactly when price and shares are truthy, and then non-zero and equal to price times shares |
| Capital.DebtValue | src/dcf_valuations/model/dcf.py:155 | known exactly when net debt is; then it is net debt floored at 0 |
| Capital.CapitalWeights | src/dcf_valuations/model/dcf.py:156-158 | with both values known and a non-zero total the weights are the shares of the total and sum to 1; an unknown side or a zero total gets 0.8 / 0.2 |
| Capital.WeightsAreFractions | src/dcf_valuations/model/dcf.py:156-158 | with positive equity and non-negative debt the weights are fractions summing to 1 |
| Capital.WaccIsWeightedAverage | src/dcf_valuations/model/dcf.py:160 | with weights that split the capital, the WACC lies between the cost of equity and the after-tax cost of debt |
| Forecast.FadeGrowth | src/dcf_valuations/model/dcf.py:173 | year 0 grows at the starting rate, the final year at the terminal rate, and every year in between at a rate between the two |
| Forecast.FadeGrowthSteps | src/dcf_valuations/model/dcf.py:173 | the fade is linear: each year changes the rate by the same step, (terminal − start) / years |
| Forecast.ForecastFcfs | src/dcf_valuations/model/dcf.py:168-175 | one cash flow per year; year 1 is the base grown once; each year is the previous one grown at that year's faded rate |
| Forecast.ForecastLoop | src/dcf_valuations/model/dcf.py:168-175 | the source's loop, carrying the previous cash flow, computes exactly the chained forecast |
| Forecast.ConstantGrowthIsGeometric | src/dcf_valuations/model/dcf.py:171-175 | with no fade the forecast is geometric: year t is base × (1 + g)^t |
| Forecast.ForecastScalesWithBase | src/dcf_valuations/model/dcf.py:171-175 | the forecast is linear in its base |
| Forecast.DiscountFactors | src/dcf_valuations/model/dcf.py:178 | one factor per year; the first is 1 + WACC; each is the previous one times 1 + WACC; none is 0 unless WACC is −1 |
| Forecast.PresentValues | src/dcf_valuations/model/dcf.py:179 | each present value times its discount factor gives back the cash flow |
| Forecast.TerminalDenominator | src/dcf_valuations/model/dcf.py:180 | the Gordon denominator is WACC − g floored at 1e-9 |
| Forecast.TerminalValue | src/dcf_valuations/model/dcf.py:180 | the terminal value times the floored denominator is the final cash flow grown once more at g; below the floor it is that cash flow × 10^9 |
| Forecast.Project | src/dcf_valuations/model/dcf.py:178-182 | the projection's cash flows and discount factors are the chained forecast and the powers of 1 + WACC, and each present value times its factor is the cash flow |
| Forecast.ProjectedTerminalValue | src/dcf_valuations/model/dcf.py:180 | the terminal value capitalises the final forecast year |
| Forecast.ProjectedEnterpriseValue | src/dcf_valuations/model/dcf.py:181-182 | enterprise value is the present values summed plus the terminal value over (1 + WACC)^years |
| Dcf.Currency | src/dcf_valuations/model/dcf.py:144 | the info record's currency when it has one, else the caller's |
| Dcf.TaxRate | src/dcf_valuations/model/dcf.py:149 | the caller's fallback for an empty income statement and only then: a non-empty statement gives the statement's estimate, in [0, 0.5], other than 0.25 only when both rows exist and some ratio is kept |
| Dcf.ForecastStart | src/dcf_valuations/model/dcf.py:169 | the historical base when there is one; else 3% of market capitalisation when price and shares are truthy; the 1e9 placeholder without a truthy price or with zero shares; unknown when the price is truthy and shares unknown |
| Dcf.EquityOf | src/dcf_valuations/model/dcf.py:184 | equity plus net debt (unknown read as 0) is the enterprise value |
| Dcf.PerShare | src/dcf_valuations/model/dcf.py:185 | known exactly when the share count is known and positive, and then it times shares is the equity value |
| Dcf.Upside | src/dcf_valuations/model/dcf.py:218 | known exactly when value per share and price are truthy; then the price raised by the upside percentage is the value per share |
| Dcf.Tabulate | src/dcf_valuations/model/dcf.py:167-193 | one row per year numbered from 1, with factor (1 + WACC)^year; the enterprise value is known exactly when the start is and no factor is 0, and then the rows carry the projection's cash flows and present values; with factors 0 the rows carry the forecast cash flows and no present value; with an unknown start nothing is known |
| Dcf.Valuation | src/dcf_valuations/model/dcf.py:184-222 | equity value is enterprise value less net debt; value per share is known exactly for a positive share count and scales back to the equity value; the summary repeats these figures with the ticker, the price and the upside of the value per share over the price |
| Dcf.Assemble | src/dcf_valuations/model/dcf.py:167-193 | the outputs are the valuation of the forecast table; a horizon of N years gives N rows with factors (1 + WACC)^t, and the enterprise value is known exactly when the forecast start is and WACC is not −1, equal to the projection's |
| Dcf.Conclude | src/dcf_valuations/model/dcf.py:156-181 | fails for a horizon below one year, or at a plain-float WACC of −1, and only then; otherwise it returns the assembled outputs, one row per year with factor (1 + WACC)^t, with no enterprise, equity or per-share value at a numpy WACC of −1 |
| Dcf.RunDcf | src/dcf_valuations/model/dcf.py:138-231 | the run fails exactly on an empty horizon or a plain-float WACC of −1; a successful run returns the outputs assembled from the derived assumptions, one forecast row per year |
| Dcf.TaxRateUsed | src/dcf_valuations/model/dcf.py:149 | a run uses the fallback tax rate for an empty income statement, and for a non-empty one the statement's estimate, in [0, 0.5] |
| Dcf.CostsOfCapital | src/dcf_valuations/model/dcf.py:145-153 | a run's cost of equity is CAPM with beta defaulting to 1; its cost of debt is at least rf + 1%, and rf + 2% without a positive yield |
| Dcf.WaccUsed | src/dcf_valuations/model/dcf.py:160 | a run's WACC is we × ke + wd × kd × (1 − t) with the run's own weights and costs |
| Dcf.WeightsUsed | src/dcf_valuations/model/dcf.py:154-158 | debt value is non-negative; weights sum to 1 when both values are known and their total is non-zero; 0.8 / 0.2 with neither value known or a zero total, 1 / 0.2 with only equity known |
| Dcf.BaseAndGrowth | src/dcf_valuations/model/dcf.py:163-165 | the base is the last present historical cash flow, unknown exactly when the history has none; starting growth is the historical rate then, else 8% |
| Dcf.AssembledForecast | src/dcf_valuations/model/dcf.py:167-179 | the forecast rows carry the chained forecast grown from the start value, whose final-year rate is the terminal rate, with the projection's present values when WACC is not −1 and none when it is; an unknown start leaves every cash flow unknown |
| Dcf.AssembledEnterpriseValue | src/dcf_valuations/model/dcf.py:178-182 | with a known start and WACC other than −1 the reported enterprise value is the present values summed plus the discounted terminal value |
| Dcf.NoSharesNoPerShareValue | src/dcf_valuations/model/dcf.py:185 | without a truthy share-count field a run reports neither value per share nor upside |
| Dcf.ZeroNetDebtEquityIsEnterpriseValue | src/dcf_valuations/model/dcf.py:184 | with net debt 0 the equity value equals the enterprise value |

## Left out

- I/O and the data providers: fetching the bundle, the pipeline, the CLI, the Markdown and Excel reports, and the date helpers. The engine receives its bundle as a value.
- IEEE floating point. Arithmetic is exact: no rounding, no overflow, no infinities. An infinite or undefined tax ratio is simply not a kept ratio. `NaN` appears only as an absent value; see `Dcf.ForecastStart` below for the price.
- Python's complex result for a negative ratio raised to 1/2. The square root is a parameter.
- `_safe`: the source defines it but the core never calls it.
- Extraction.HistoricalGrowth: the window is fixed at 3, the only value `run_dcf` passes. Its other outcomes are stated on `Extraction.GrowthOf` and its two compounding lemmas.
- Dcf.ForecastStart: a `NaN` price is read as absent. The source stores `float(...["Close"].iloc[-1])` (data_providers/market_yf.py:15), which can be `NaN`, and `NaN` is truthy. With no FCF history and known shares the source starts the forecast at `NaN` and its enterprise value is `NaN`; the model starts at the 1e9 placeholder and reports a known value. The same price gives a `NaN` upside in the source (dcf.py:218) and an absent one here.
- Dcf.Upside: a `NaN` value per share with a truthy price gives `NaN` in the source but an absent upside here; the model does not distinguish `NaN` from `None`.
- Info fields are numbers or strings. A key present with value `None` is read as absent. So `float(None)` in `_cost_of_debt`, which would raise, is not modelled.
- Text lower-casing is ASCII-only.
- Pandas index alignment of two rows: rows of one statement share their columns, so element-wise operations zip by position. Duplicate labels are not modelled either.
- Building the forecast DataFrame: rows carry the same four fields as a record.
- Dcf.DefaultInputs: no contract of its own. It holds the `DCFInputs` defaults of dcf.py:11-16 (rf 7%, ERP 5.5%, terminal growth 5.5%, 10 years, fallback tax 25%, no size premium).
- Capital.KnownTotal: no contract of its own. It is `np.nansum([E, D])` of dcf.py:156, and `Capital.CapitalWeights` and `Dcf.WeightsUsed` state the weights it yields.
- Capital.Wacc and Capital.AfterTax: no contract of their own. `Dcf.WaccUsed` states the WACC formula of a run, and `Capital.WaccIsWeightedAverage` bounds it.
- Dcf.Conclude: at a numpy WACC of −1 the source reports infinite or `NaN` present, enterprise, equity and per-share values, and an upside computed from them. The model reports them as unavailable, because it has no infinities.
- Dcf.Derive: no contract of its own. The lemmas `TaxRateUsed`, `CostsOfCapital`, `WaccUsed`, `WeightsUsed` and `BaseAndGrowth` state what it computes.
- Idempotence: every operation is a pure function of its inputs.

=== FILE: capital.dfy ===
/** The capital structure: market values of equity and debt, the weights
    derived from them, and the weighted average cost of capital. */
module Capital {
  import opened Options

  /** Weights used for a side whose value is unknown, or when the total is 0. */
  const DefaultEquityWeight: real := 0.8
  const DefaultDebtWeight: real := 0.2

  /** Weight of equity and weight of debt. */
  datatype Weights = Weights(we: real, wd: real)

  /** Market value of equity, price times shares, known only when both are
      truthy (present and non-zero). */
  function EquityValue(price: Option<real>, shares: Option<real>): (r: Option<real>)
    ensures r.Some? <==> price.Some? && price.value != 0.0 && shares.Some? && shares.value != 0.0
    ensures r.Some? ==> r.value != 0.0 && r.value / shares.value == price.value
  {
    if price.Some? && price.value != 0.0 && shares.Some? && shares.value != 0.0
    then Some(price.value * shares.value)
    else None
  }

  /** Value of debt: net debt floored at 0, unknown when net debt is. */
  function DebtValue(netDebt: Option<real>): (r: Option<real>)
    ensures r.Some? <==> netDebt.Some?
    ensures r.Some? ==> r.value >= 0.0 && r.value >= netDebt.value
    ensures r.Some? ==> r.value == 0.0 || r.value == netDebt.value
  {
    match netDebt
    case None => None
    case Some(nd) => Some(if nd > 0.0 then nd else 0.0)
  }

  /** Sum of whichever of the two values are known (0 when neither is). */
  function KnownTotal(e: Option<real>, d: Option<real>): real
  {
    e.GetOr(0.0) + d.GetOr(0.0)
  }

  /** Each known side's share of the known total; a side that is unknown, or a
      total of 0, gets its default weight. */
  function CapitalWeights(e: Option<real>, d: Option<real>): (w: Weights)
    ensures e.Some? && d.Some? && e.value + d.value != 0.0 ==>
      w.we + w.wd == 1.0 && w.we * (e.value + d.value) == e.value && w.wd * (e.value + d.value) == d.value
    ensures e.None? && d.None? ==> w == Weights(DefaultEquityWeight, DefaultDebtWeight)
    ensures e.Some? && e.value != 0.0 && d.None? ==> w == Weights(1.0, DefaultDebtWeight)
    ensures d.Some? && d.value != 0.0 && e.None? ==> w == Weights(DefaultEquityWeight, 1.0)
    ensures KnownTotal(e, d) == 0.0 ==> w == Weights(DefaultEquityWeight, DefaultDebtWeight)
  {
    var v := KnownTotal(e, d);
    var w := Weights(if v != 0.0 && e.Some? then e.value / v else DefaultEquityWeight,
                     if v != 0.0 && d.Some? then d.value / v else DefaultDebtWeight);
    ShareFacts(e.GetOr(0.0), d.GetOr(0.0));
    w
  }

  /** The two shares of a non-zero total sum to 1 and scale back to the parts. */
  lemma ShareFacts(x: real, y: real)
    ensures x + y != 0.0 ==>
      x / (x + y) + y / (x + y) == 1.0 && x / (x + y) * (x + y) == x && y / (x + y) * (x + y) == y
    ensures x != 0.0 && y == 0.0 ==> x / (x + y) == 1.0
    ensures y != 0.0 && x == 0.0 ==> y / (x + y) == 1.0
  {
    if x + y != 0.0 {
      assert x / (x + y) + y / (x + y) == (x + y) / (x + y);
    }
  }

  /** With positive equity and non-negative debt both known, the weights are
      fractions in [0, 1] that sum to 1. */
  lemma WeightsAreFractions(e: real, d: real)
    requires e > 0.0 && d >= 0.0
    ensures var w := CapitalWeights(Some(e), Some(d));
      0.0 < w.we <= 1.0 && 0.0 <= w.wd < 1.0 && w.we + w.wd == 1.0
  {
    var w := CapitalWeights(Some(e), Some(d));
    assert w.we * (e + d) == e;
    assert w.wd * (e + d) == d;
  }

  /** Cost of debt net of the tax shield. */
  function AfterTax(kd: real, taxRate: real): real
  {
    kd * (1.0 - taxRate)
  }

  /** WACC: weighted cost of equity plus weighted after-tax cost of debt. */
  function Wacc(w: Weights, ke: real, kd: real, taxRate: real): real
  {
    w.we * ke + w.wd * AfterTax(kd, taxRate)
  }

  /** When the weights split the capital (fractions summing to 1), WACC lies
      between the cost of equity and the after-tax cost of debt. */
  lemma WaccIsWeightedAverage(w: Weights, ke: real, kd: real, taxRate: real)
    requires 0.0 <= w.we && 0.0 <= w.wd && w.we + w.wd == 1.0
    ensures var kdAfterTax := AfterTax(kd, taxRate);
      var lo := if ke <= kdAfterTax then ke else kdAfterTax;
      var hi := if ke <= kdAfterTax then kdAfterTax else ke;
      lo <= Wacc(w, ke, kd, taxRate) <= hi
  {
    var kdAfterTax := AfterTax(kd, taxRate);
    var wacc := Wacc(w, ke, kd, taxRate);
    BetweenBounds(w.we, w.wd, ke, kdAfterTax);
    if ke <= kdAfterTax {
      assert ke <= wacc <= kdAfterTax;
    } else {
      assert kdAfterTax <= wacc <= ke;
    }
  }

  /** A convex combination of two numbers lies between them. */
  lemma BetweenBounds(p: real, q: real, a: real, b: real)
    requires 0.0 <= p && 0.0 <= q && p + q == 1.0
    ensures a <= b ==> a <= p * a + q * b <= b
    ensures b <= a ==> b <= p * a + q * b <= a
  {
    assert p * a + q * b == a + q * (b - a);
    assert p * a + q * b == b + p * (a - b);
    if a <= b {
      ScaleByFraction(q, b - a);
    } else {
      ScaleByFraction(p, a - b);
    }
  }

  lemma ScaleByFraction(f: real, x: real)
    requires 0.0 <= f <= 1.0 && x >= 0.0
    ensures 0.0 <= f * x <= x
  {
    assert (1.0 - f) * x >= 0.0;
  }
}

=== FILE: dcf.dfy ===
/** The valuation engine: from a raw data bundle and the caller's inputs to the
    WACC, the faded free-cash-flow forecast, the terminal value, and the
    enterprise, equity and per-share values. */
module Dcf {
  import opened Options
  import opened Reals
  import opened RawData
  import opened Extraction
  import opened Capital
  import opened Forecast

  /** The caller's macro and model assumptions. Rates are decimal fractions. */
  datatype Inputs = Inputs(
    ticker: string,
    currency: string,
    riskFree: real,
    erp: real,
    terminalG: real,
    years: int,
    taxRateFallback: real,
    sizePremium: real)

  /** Inputs with the engine's default assumptions. */
  function DefaultInputs(ticker: string, currency: string): Inputs
  {
    Inputs(ticker, currency, 0.07, 0.055, 0.055, 10, 0.25, 0.0)
  }

  /** Info record, last price (None when unknown) and the three statements. */
  datatype Bundle = Bundle(
    info: Info,
    price: Option<real>,
    financials: Table,
    balanceSheet: Table,
    cashflow: Table)

  /** One forecast year: its index (from 1), cash flow, discount factor and
      present value. A forecast grown from an unavailable base has
      unavailable cash flows and present values. */
  datatype ForecastRow = ForecastRow(year: nat, fcf: Option<real>, discountFactor: real, pv: Option<real>)

  /** The forecast rows of a run with the enterprise value they add up to. */
  datatype ForecastTable = ForecastTable(rows: seq<ForecastRow>, ev: Option<real>)

  /** Every derived or intermediate figure of a run. */
  datatype Assumptions = Assumptions(
    beta: real,
    riskFree: real,
    erp: real,
    sizePremium: real,
    ke: real,
    kd: real,
    taxRate: real,
    we: real,
    wd: real,
    wacc: real,
    terminalG: real,
    baseFcf: Option<real>,
    growthStart: real,
    sharesOut: Option<real>,
    price: Option<real>,
    currency: string,
    netDebt: Option<real>)

  datatype Summary = Summary(
    ticker: string,
    valuePerShare: Option<real>,
    currentPrice: Option<real>,
    upsidePct: Option<real>,
    wacc: real,
    terminalG: real,
    years: int)

  datatype Outputs = Outputs(
    summary: Summary,
    forecast: seq<ForecastRow>,
    assumptions: Assumptions,
    ev: Option<real>,
    equityValue: Option<real>,
    valuePerShare: Option<real>)

  /** A horizon below one year leaves no final forecast year to capitalise;
      a WACC of -1 held as a plain float makes every discount factor a plain
      0, and dividing by it raises. */
  datatype DcfError = EmptyHorizon | ZeroDiscountFactor

  /** Placeholder cash flow used when neither history nor market value gives one. */
  const PlaceholderFcf: real := 1000000000.0
  /** Share of market capitalisation used as a cash flow when there is no history. */
  const MarketCapYield: real := 0.03

  /** Reporting currency: the info record's, else the caller's. */
  function Currency(info: Info, fallback: string): (r: string)
    ensures "currency" in info.texts ==> r == info.texts["currency"]
    ensures "currency" !in info.texts ==> r == fallback
  {
    if "currency" in info.texts then info.texts["currency"] else fallback
  }

  /** The tax rate used: estimated from a non-empty income statement, else the
      caller's fallback. */
  function TaxRate(financials: Table, fallback: real): (r: real)
    ensures IsEmpty(financials) ==> r == fallback
    ensures !IsEmpty(financials) ==> r == EstimateTaxRate(financials)
    ensures !IsEmpty(financials) ==> 0.0 <= r <= MaxTaxRatio
    ensures !IsEmpty(financials) && r != DefaultTaxRate ==>
      && FindRow(financials, TaxLabels).Some? && FindRow(financials, PretaxLabels).Some?
      && |KeptRatios(FindRow(financials, TaxLabels).value, FindRow(financials, PretaxLabels).value)| > 0
  {
    if !IsEmpty(financials) then EstimateTaxRate(financials) else fallback
  }

  /** The cash flow the forecast grows from: the last present historical value, else
      3% of market capitalisation when price and shares are truthy, else the
      placeholder. A truthy price with unknown shares gives an unknown base. */
  function ForecastStart(baseFcf: Option<real>, price: Option<real>, shares: Option<real>): (r: Option<real>)
    ensures baseFcf.Some? ==> r == baseFcf
    ensures baseFcf.None? && price.Some? && price.value != 0.0 && shares.Some? && shares.value != 0.0 ==>
      r == Some(price.value * shares.value * MarketCapYield)
    ensures baseFcf.None? && (price.None? || price.value == 0.0) ==> r == Some(PlaceholderFcf)
    ensures baseFcf.None? && shares.Some? && shares.value == 0.0 ==> r == Some(PlaceholderFcf)
    ensures baseFcf.None? && price.Some? && price.value != 0.0 && shares.None? ==> r.None?
  {
    if baseFcf.Some? then baseFcf
    else if price.Some? && price.value != 0.0 && (shares.None? || shares.value != 0.0) then
      (if shares.Some? then Some(price.value * shares.value * MarketCapYield) else None)
    else Some(PlaceholderFcf)
  }

  /** Everything the engine derives before forecasting. `sqrt` is the square
      root the two-period historical growth rate uses. */
  function Derive(b: Bundle, inputs: Inputs, sqrt: real -> real): Assumptions
  {
    var beta := Beta(b.info);
    var shares := SharesOut(b.info);
    var taxRate := TaxRate(b.financials, inputs.taxRateFallback);
    var kd := CostOfDebt(b.info, inputs.riskFree);
    var netDebt := NetDebt(b.info, b.balanceSheet);
    var ke := CostOfEquity(beta, inputs.riskFree, inputs.erp, inputs.sizePremium);
    var w := CapitalWeights(EquityValue(b.price, shares), DebtValue(netDebt));
    var wacc := Wacc(w, ke, kd, taxRate);
    var history := FcfSeries(b.financials, b.cashflow);
    var baseFcf := LastPresent(history);
    var growth := if baseFcf.Some? then HistoricalGrowth(history, sqrt) else DefaultGrowth;
    Assumptions(beta, inputs.riskFree, inputs.erp, inputs.sizePremium, ke, kd, taxRate, w.we, w.wd, wacc,
                inputs.terminalG, baseFcf, growth, shares, b.price, Currency(b.info, inputs.currency), netDebt)
  }

  /** Equity value: enterprise value less net debt, unknown net debt read as 0. */
  function EquityOf(ev: Option<real>, netDebt: Option<real>): (r: Option<real>)
    ensures r.Some? <==> ev.Some?
    ensures r.Some? ==> r.value + netDebt.GetOr(0.0) == ev.value
  {
    match ev
    case None => None
    case Some(v) => Some(v - netDebt.GetOr(0.0))
  }

  /** Value per share: equity over shares, known only for a positive share count. */
  function PerShare(equity: Option<real>, shares: Option<real>): (r: Option<real>)
    ensures r.Some? <==> equity.Some? && shares.Some? && shares.value > 0.0
    ensures r.Some? ==> r.value * shares.value == equity.value
  {
    if equity.Some? && shares.Some? && shares.value > 0.0 then Some(equity.value / shares.value) else None
  }

  /** Upside of the per-share value over the price, in percent; known only
      when both are truthy. */
  function Upside(valuePerShare: Option<real>, price: Option<real>): (r: Option<real>)
    ensures r.Some? <==> valuePerShare.Some? && valuePerShare.value != 0.0 && price.Some? && price.value != 0.0
    ensures r.Some? ==> price.value * (1.0 + r.value / 100.0) == valuePerShare.value
  {
    if valuePerShare.Some? && valuePerShare.value != 0.0 && price.Some? && price.value != 0.0
    then Some((valuePerShare.value / price.value - 1.0) * 100.0)
    else None
  }

  /** The forecast table and enterprise value grown from `start`. With every
      discount factor 0 the cash flows are still forecast, but the present
      values and the enterprise value are infinite or NaN and so unavailable. */
  function Tabulate(start: Option<real>, a: Assumptions, years: nat): (r: ForecastTable)
    requires years > 0
    ensures |r.rows| == years
    ensures r.ev.Some? <==> start.Some? && 1.0 + a.wacc != 0.0
    ensures forall t :: 0 <= t < years ==>
      r.rows[t].year == t + 1 && r.rows[t].discountFactor == Pow(1.0 + a.wacc, t + 1)
    ensures start.Some? && 1.0 + a.wacc != 0.0 ==>
      var p := Project(start.value, a.growthStart, a.wacc, a.terminalG, years);
      && r.ev == Some(p.ev)
      && forall t :: 0 <= t < years ==> r.rows[t].fcf == Some(p.fcfs[t]) && r.rows[t].pv == Some(p.pvs[t])
    ensures start.Some? && 1.0 + a.wacc == 0.0 ==>
      var fcfs := ForecastFcfs(start.value, a.growthStart, a.terminalG, years);
      forall t :: 0 <= t < years ==> r.rows[t].fcf == Some(fcfs[t]) && r.rows[t].pv.None?
    ensures start.None? ==> forall t :: 0 <= t < years ==> r.rows[t].fcf.None? && r.rows[t].pv.None?
  {
    var discounts := DiscountFactors(a.wacc, years);
    match start
    case None =>
      ForecastTable(seq(years, i requires 0 <= i < years => ForecastRow(i + 1, None, discounts[i], None)), None)
    case Some(s) =>
      if 1.0 + a.wacc == 0.0 then
        var fcfs := ForecastFcfs(s, a.growthStart, a.terminalG, years);
        ForecastTable(seq(years, i requires 0 <= i < years => ForecastRow(i + 1, Some(fcfs[i]), discounts[i], None)), None)
      else
        var p := Project(s, a.growthStart, a.wacc, a.terminalG, years);
        ForecastTable(seq(years, i requires 0 <= i < years => ForecastRow(i + 1, Some(p.fcfs[i]), p.discounts[i], Some(p.pvs[i]))),
          Some(p.ev))
  }

  /** The outputs of a run whose assumptions are `a`, forecast `rows` and
      enterprise value `ev`: equity value, value per share and the summary. */
  function Valuation(inputs: Inputs, price: Option<real>, a: Assumptions, rows: seq<ForecastRow>, ev: Option<real>): (out: Outputs)
    ensures out.forecast == rows && out.ev == ev && out.assumptions == a
    ensures out.equityValue.Some? <==> ev.Some?
    ensures out.equityValue.Some? ==> out.equityValue.value + a.netDebt.GetOr(0.0) == ev.value
    ensures out.valuePerShare.Some? <==> out.equityValue.Some? && a.sharesOut.Some? && a.sharesOut.value > 0.0
    ensures out.valuePerShare.Some? ==> out.valuePerShare.value * a.sharesOut.value == out.equityValue.value
    ensures out.summary.valuePerShare == out.valuePerShare && out.summary.currentPrice == price
    ensures out.summary.ticker == inputs.ticker && out.summary.upsidePct == Upside(out.valuePerShare, price)
    ensures out.summary.wacc == a.wacc && out.summary.terminalG == inputs.terminalG && out.summary.years == inputs.years
  {
    var equity := EquityOf(ev, a.netDebt);
    var perShare := PerShare(equity, a.sharesOut);
    var summary := Summary(inputs.ticker, perShare, price, Upside(perShare, price), a.wacc, inputs.terminalG, inputs.years);
    Outputs(summary, rows, a, ev, equity, perShare)
  }

  /** The outputs of a run whose assumptions are `a`: the forecast table, then
      the valuation of its enterprise value. */
  function Assemble(b: Bundle, inputs: Inputs, a: Assumptions): (out: Outputs)
    requires inputs.years >= 1
    ensures out == Valuation(inputs, b.price, a, out.forecast, out.ev)
    ensures out.assumptions == a
    ensures |out.forecast| == inputs.years
    ensures forall t :: 0 <= t < |out.forecast| ==>
      out.forecast[t].year == t + 1 && out.forecast[t].discountFactor == Pow(1.0 + a.wacc, t + 1)
    ensures out.ev.Some? <==> ForecastStart(a.baseFcf, b.price, a.sharesOut).Some? && 1.0 + a.wacc != 0.0
    ensures var start := ForecastStart(a.baseFcf, b.price, a.sharesOut);
      start.Some? && 1.0 + a.wacc != 0.0 ==>
        out.ev == Some(Project(start.value, a.growthStart, a.wacc, a.terminalG, inputs.years as nat).ev)
  {
    var start := ForecastStart(a.baseFcf, b.price, a.sharesOut);
    var table := Tabulate(start, a, inputs.years as nat);
    Valuation(inputs, b.price, a, table.rows, table.ev)
  }

  /** Whether the run's WACC is a plain float. The market-value weights are
      numpy scalars, so the WACC is one whenever the known total of the market
      values is non-zero; only with that total 0 are both weights the plain
      default constants. Dividing a plain float by a plain 0 raises, while
      dividing by a numpy 0 gives an infinity or NaN. */
  predicate PlainFloatWacc(b: Bundle, a: Assumptions)
  {
    KnownTotal(EquityValue(b.price, a.sharesOut), DebtValue(a.netDebt)) == 0.0
  }

  /** A run with assumptions `a`: no forecast year for a horizon below one,
      a raised division at a plain-float WACC of -1, else the assembled
      outputs, whose values beyond the cash flows are unavailable at a numpy
      WACC of -1. */
  function Conclude(b: Bundle, inputs: Inputs, a: Assumptions): (r: Result<Outputs, DcfError>)
    ensures r == Err(EmptyHorizon) <==> inputs.years < 1
    ensures r == Err(ZeroDiscountFactor) <==> inputs.years >= 1 && a.wacc == -1.0 && PlainFloatWacc(b, a)
    ensures r.Ok? ==> r.value == Assemble(b, inputs, a)
    ensures r.Ok? ==> r.value.assumptions == a && |r.value.forecast| == inputs.years
    ensures r.Ok? ==> forall t :: 0 <= t < |r.value.forecast| ==>
      r.value.forecast[t].year == t + 1 && r.value.forecast[t].discountFactor == Pow(1.0 + a.wacc, t + 1)
    ensures r.Ok? && a.wacc == -1.0 ==>
      r.value.ev.None? && r.value.equityValue.None? && r.value.valuePerShare.None?
  {
    if inputs.years < 1 then Err(EmptyHorizon)
    else if 1.0 + a.wacc == 0.0 && PlainFloatWacc(b, a) then Err(ZeroDiscountFactor)
    else Ok(Assemble(b, inputs, a))
  }

  /** The engine: derive the assumptions, then conclude the run. */
  function RunDcf(b: Bundle, inputs: Inputs, sqrt: real -> real): (r: Result<Outputs, DcfError>)
    ensures r == Err(EmptyHorizon) <==> inputs.years < 1
    ensures r == Err(ZeroDiscountFactor) <==>
      inputs.years >= 1 && Derive(b, inputs, sqrt).wacc == -1.0 && PlainFloatWacc(b, Derive(b, inputs, sqrt))
    ensures r.Ok? ==> r.value == Assemble(b, inputs, Derive(b, inputs, sqrt))
    ensures r.Ok? ==> r.value.assumptions == Derive(b, inputs, sqrt) && |r.value.forecast| == inputs.years
  {
    Conclude(b, inputs, Derive(b, inputs, sqrt))
  }

  // ------------------------------------------------------------ properties

  /** The tax rate a run uses is the caller's fallback only for an empty income
      statement; otherwise it is the statement's estimate, in [0, 0.5]. */
  lemma TaxRateUsed(b: Bundle, inputs: Inputs, sqrt: real -> real)
    ensures var a := Derive(b, inputs, sqrt);
      && (IsEmpty(b.financials) ==> a.taxRate == inputs.taxRateFallback)
      && (!IsEmpty(b.financials) ==> a.taxRate == EstimateTaxRate(b.financials))
      && (!IsEmpty(b.financials) ==> 0.0 <= a.taxRate <= MaxTaxRatio)
  {
  }

  /** Costs of capital: CAPM cost of equity with beta defaulting to 1, and a
      cost of debt never below the risk-free rate plus 1%. */
  lemma CostsOfCapital(b: Bundle, inputs: Inputs, sqrt: real -> real)
    ensures var a := Derive(b, inputs, sqrt);
      && a.ke == inputs.riskFree + a.beta * inputs.erp + inputs.sizePremium
      && (!Truthy(b.info, "beta") ==> a.beta == 1.0)
      && a.kd >= inputs.riskFree + 0.01
      && (NumOr(b.info, "yield", 0.0) <= 0.0 ==> a.kd == inputs.riskFree + 0.02)
  {
    var a := Derive(b, inputs, sqrt);
    assert a.ke == CostOfEquity(a.beta, inputs.riskFree, inputs.erp, inputs.sizePremium);
    CostOfEquityOfAssumptions(a, inputs);
  }

  /** Assumptions whose cost of equity is CAPM's at their own beta: the CAPM
      sum. Stated over a bare `Assumptions` record so that the arithmetic is
      proved without unfolding `Derive`, which the solver cannot afford. */
  lemma CostOfEquityOfAssumptions(a: Assumptions, inputs: Inputs)
    requires a.ke == CostOfEquity(a.beta, inputs.riskFree, inputs.erp, inputs.sizePremium)
    ensures a.ke == inputs.riskFree + a.beta * inputs.erp + inputs.sizePremium
  {
  }

  /** The WACC of a run: its capital weights blending the cost of equity and
      the after-tax cost of debt. */
  lemma WaccUsed(b: Bundle, inputs: Inputs, sqrt: real -> real)
    ensures var a := Derive(b, inputs, sqrt);
      a.wacc == a.we * a.ke + a.wd * AfterTax(a.kd, a.taxRate)
  {
    var a := Derive(b, inputs, sqrt);
    var w := CapitalWeights(EquityValue(b.price, a.sharesOut), DebtValue(a.netDebt));
    assert a.we == w.we && a.wd == w.wd;
    assert a.wacc == Wacc(w, a.ke, a.kd, a.taxRate);
    WaccOfAssumptions(a, w);
  }

  /** The capital weights of a run. Weights sum to 1 when both market values
      are known and their total is non-zero; with neither known they are
      0.8 / 0.2; with only equity known they are 1 / 0.2. */
  lemma WeightsUsed(b: Bundle, inputs: Inputs, sqrt: real -> real)
    ensures var a := Derive(b, inputs, sqrt);
      var d := DebtValue(a.netDebt);
      d.Some? ==> d.value >= 0.0
    ensures var a := Derive(b, inputs, sqrt);
      var e := EquityValue(b.price, a.sharesOut);
      var d := DebtValue(a.netDebt);
      && (e.Some? && d.Some? && e.value + d.value != 0.0 ==> a.we + a.wd == 1.0)
      && (e.None? && d.None? ==> a.we == DefaultEquityWeight && a.wd == DefaultDebtWeight)
      && (e.Some? && d.None? ==> a.we == 1.0 && a.wd == DefaultDebtWeight)
      && (KnownTotal(e, d) == 0.0 ==> a.we == DefaultEquityWeight && a.wd == DefaultDebtWeight)
  {
    var a := Derive(b, inputs, sqrt);
    var e := EquityValue(b.price, a.sharesOut);
    var d := DebtValue(a.netDebt);
    var w := CapitalWeights(e, d);
    assert a.we == w.we && a.wd == w.wd;
    WeightsOfAssumptions(a, e, d, w);
  }

  /** Assumptions whose weights are those of the market values `e` and `d`.
      Stated over a bare `Assumptions` record so that the case split on the
      weights is proved without unfolding `Derive`, which the solver cannot
      afford. */
  lemma WeightsOfAssumptions(a: Assumptions, e: Option<real>, d: Option<real>, w: Weights)
    requires w == CapitalWeights(e, d) && a.we == w.we && a.wd == w.wd
    requires e.Some? ==> e.value != 0.0
    ensures e.Some? && d.Some? && e.value + d.value != 0.0 ==> a.we + a.wd == 1.0
    ensures e.None? && d.None? ==> a.we == DefaultEquityWeight && a.wd == DefaultDebtWeight
    ensures e.Some? && d.None? ==> a.we == 1.0 && a.wd == DefaultDebtWeight
    ensures KnownTotal(e, d) == 0.0 ==> a.we == DefaultEquityWeight && a.wd == DefaultDebtWeight
  {
  }

  /** Assumptions whose WACC is that of weights equal to their own: the WACC
      as the weighted sum. Stated over a bare `Assumptions` record so that the
      products are matched without unfolding `Derive`, which the solver cannot
      afford. */
  lemma WaccOfAssumptions(a: Assumptions, w: Weights)
    requires w.we == a.we && w.wd == a.wd && a.wacc == Wacc(w, a.ke, a.kd, a.taxRate)
    ensures a.wacc == a.we * a.ke + a.wd * AfterTax(a.kd, a.taxRate)
  {
  }

  /** The base cash flow is the last present value of the FCF history; the
      starting growth is the historical rate when there is one, else 8%. */
  lemma BaseAndGrowth(b: Bundle, inputs: Inputs, sqrt: real -> real)
    ensures var a := Derive(b, inputs, sqrt);
      var history := FcfSeries(b.financials, b.cashflow);
      && (a.baseFcf.None? <==> forall i :: 0 <= i < |history| ==> history[i].None?)
      && (a.baseFcf.Some? ==> exists i :: LastPresentAt(history, i) && history[i] == a.baseFcf)
      && (a.baseFcf.Some? ==> a.growthStart == HistoricalGrowth(history, sqrt))
      && (a.baseFcf.None? ==> a.growthStart == DefaultGrowth)
  {
  }

  /** The assembled forecast: year t's cash flow and present value are those
      of the projection grown from the start value (whose cash flows chain
      year on year at the faded rate, reaching the terminal rate in the final
      year); with every discount factor 0 the cash flows are still forecast
      but no present value is available; an unknown start leaves every cash
      flow unknown. */
  lemma AssembledForecast(b: Bundle, inputs: Inputs, a: Assumptions)
    requires inputs.years >= 1
    ensures var out := Assemble(b, inputs, a);
      var years := inputs.years as nat;
      var start := ForecastStart(a.baseFcf, b.price, a.sharesOut);
      && |out.forecast| == years
      && (start.Some? && 1.0 + a.wacc != 0.0 ==>
            var p := Project(start.value, a.growthStart, a.wacc, a.terminalG, years);
            && p.fcfs == ForecastFcfs(start.value, a.growthStart, a.terminalG, years)
            && forall t :: 0 <= t < years ==>
                 out.forecast[t].fcf == Some(p.fcfs[t]) && out.forecast[t].pv == Some(p.pvs[t]))
      && (start.Some? && 1.0 + a.wacc == 0.0 ==>
            var fcfs := ForecastFcfs(start.value, a.growthStart, a.terminalG, years);
            forall t :: 0 <= t < years ==> out.forecast[t].fcf == Some(fcfs[t]) && out.forecast[t].pv.None?)
      && FadeGrowth(a.growthStart, a.terminalG, years, years) == a.terminalG
      && (start.None? ==> forall t :: 0 <= t < years ==> out.forecast[t].fcf.None? && out.forecast[t].pv.None?)
  {
    var start := ForecastStart(a.baseFcf, b.price, a.sharesOut);
    assert Assemble(b, inputs, a).forecast == Tabulate(start, a, inputs.years as nat).rows;
  }

  /** The enterprise value of assembled outputs: the present values summed,
      plus the terminal value discounted by (1 + wacc)^years. */
  lemma AssembledEnterpriseValue(b: Bundle, inputs: Inputs, a: Assumptions)
    requires inputs.years >= 1
    ensures var start := ForecastStart(a.baseFcf, b.price, a.sharesOut);
      start.Some? && 1.0 + a.wacc != 0.0 ==>
        var p := Project(start.value, a.growthStart, a.wacc, a.terminalG, inputs.years as nat);
        Assemble(b, inputs, a).ev == Some(Sum(p.pvs) + p.terminalValue / Pow(1.0 + a.wacc, inputs.years as nat))
  {
    var start := ForecastStart(a.baseFcf, b.price, a.sharesOut);
    if start.Some? && 1.0 + a.wacc != 0.0 {
      ProjectedEnterpriseValue(start.value, a.growthStart, a.wacc, a.terminalG, inputs.years as nat);
    }
  }

  /** Without any share count in the info record there is no value per share. */
  lemma NoSharesNoPerShareValue(b: Bundle, inputs: Inputs, sqrt: real -> real)
    requires forall i :: 0 <= i < |ShareKeys| ==> !Truthy(b.info, ShareKeys[i])
    requires RunDcf(b, inputs, sqrt).Ok?
    ensures RunDcf(b, inputs, sqrt).value.valuePerShare.None?
    ensures RunDcf(b, inputs, sqrt).value.summary.upsidePct.None?
  {
  }

  /** With net debt known to be 0 the equity value is the enterprise value. */
  lemma ZeroNetDebtEquityIsEnterpriseValue(b: Bundle, inputs: Inputs, sqrt: real -> real)
    requires inputs.years >= 1 && Derive(b, inputs, sqrt).wacc != -1.0
    requires NetDebt(b.info, b.balanceSheet) == Some(0.0)
    ensures RunDcf(b, inputs, sqrt).Ok?
    ensures RunDcf(b, inputs, sqrt).value.equityValue == RunDcf(b, inputs, sqrt).value.ev
  {
    var a := Derive(b, inputs, sqrt);
    assert a.netDebt == Some(0.0);
    var out := Assemble(b, inputs, a);
    assert RunDcf(b, inputs, sqrt) == Ok(out);
  }
}

=== FILE: extraction.dfy ===
/** The valuation engine's data-extraction helpers: each reads one figure out
    of the raw bundle, degrading to a fixed fallback when the data is missing. */
module Extraction {
  import opened Options
  import opened Reals
  import opened RawData

  const TaxLabels: seq<string> := ["Tax Provision", "Income Tax Expense"]
  const PretaxLabels: seq<string> := ["Pretax Income", "Ebt", "EBT"]
  const ShareKeys: seq<string> := ["sharesOutstanding", "impliedSharesOutstanding", "floatShares"]
  const CashLabels: seq<string> := ["Cash And Cash Equivalents", "Cash", "Cash And Short Term Investments"]
  const DebtLabels: seq<string> := ["Total Debt", "Long Term Debt And Capital Lease Obligation", "Short Long Term Debt Total"]
  const OcfLabels: seq<string> := ["Operating Cash Flow", "Total Cash From Operating Activities"]
  const CapexLabels: seq<string> := ["Capital Expenditures"]
  const FcfLabel: string := "Free Cash Flow"

  /** The tax rate used when none can be estimated. */
  const DefaultTaxRate: real := 0.25
  /** The growth rate used when no growth can be derived. */
  const DefaultGrowth: real := 0.08
  /** Largest tax/pretax ratio kept as plausible. */
  const MaxTaxRatio: real := 0.5

  // ---------------------------------------------------------------- tax rate

  /** A period's tax/pretax ratio is defined (both cells present, pretax
      non-zero) and lies in [0, 0.5]. */
  predicate KeptRatio(tax: Option<real>, pretax: Option<real>)
  {
    && tax.Some? && pretax.Some? && pretax.value != 0.0
    && 0.0 <= tax.value / pretax.value <= MaxTaxRatio
  }

  /** The kept tax/pretax ratios, period by period, over the periods both rows
      cover. */
  function KeptRatios(tax: Row, pretax: Row): (r: seq<real>)
    ensures forall k :: 0 <= k < |r| ==> 0.0 <= r[k] <= MaxTaxRatio
    ensures |r| == 0 <==> forall i :: 0 <= i < |tax| && i < |pretax| ==> !KeptRatio(tax[i], pretax[i])
  {
    if |tax| == 0 || |pretax| == 0 then []
    else
      var rest := KeptRatios(tax[1..], pretax[1..]);
      assert forall i :: 1 <= i < |tax| && i < |pretax| ==>
        tax[i] == tax[1..][i - 1] && pretax[i] == pretax[1..][i - 1];
      if KeptRatio(tax[0], pretax[0]) then [tax[0].value / pretax[0].value] + rest else rest
  }

  /** The periods from `i` on whose ratio is kept, in increasing order. */
  function KeptPeriodsFrom(tax: Row, pretax: Row, i: nat): (r: seq<nat>)
    ensures forall k :: 0 <= k < |r| ==> i <= r[k] < |tax| && r[k] < |pretax| && KeptRatio(tax[r[k]], pretax[r[k]])
    ensures forall j, k :: 0 <= j < k < |r| ==> r[j] < r[k]
    ensures forall p :: i <= p < |tax| && p < |pretax| && KeptRatio(tax[p], pretax[p]) ==> p in r
    decreases |tax| - i
  {
    if i >= |tax| || i >= |pretax| then []
    else
      var rest := KeptPeriodsFrom(tax, pretax, i + 1);
      if KeptRatio(tax[i], pretax[i]) then [i] + rest else rest
  }

  /** Period `p`'s tax/pretax ratio, or 0 where it is undefined. */
  function PeriodRatio(tax: Row, pretax: Row, p: nat): real
  {
    if p < |tax| && p < |pretax| && tax[p].Some? && pretax[p].Some? && pretax[p].value != 0.0
    then tax[p].value / pretax[p].value
    else 0.0
  }

  /** Putting a period's ratio in front of ratios that match their periods
      keeps them matched. */
  lemma RatiosConsPeriod(tax: Row, pretax: Row, i: nat, rest: seq<real>, restPeriods: seq<nat>)
    requires |rest| == |restPeriods|
    requires forall k :: 0 <= k < |rest| ==> rest[k] == PeriodRatio(tax, pretax, restPeriods[k])
    ensures var kept := [PeriodRatio(tax, pretax, i)] + rest;
      var periods := [i] + restPeriods;
      forall k :: 0 <= k < |kept| ==> kept[k] == PeriodRatio(tax, pretax, periods[k])
  {
    var kept := [PeriodRatio(tax, pretax, i)] + rest;
    var periods := [i] + restPeriods;
    forall k | 1 <= k < |kept|
      ensures kept[k] == PeriodRatio(tax, pretax, periods[k])
    {
      assert kept[k] == rest[k - 1] && periods[k] == restPeriods[k - 1];
    }
  }

  /** The kept ratios are those of the kept periods, one each, in period
      order: entry k is the ratio of the k-th kept period. */
  lemma {:induction false} KeptRatiosInPeriodOrder(tax: Row, pretax: Row, i: nat)
    requires i <= |tax| && i <= |pretax|
    ensures var kept := KeptRatios(tax[i..], pretax[i..]);
      var periods := KeptPeriodsFrom(tax, pretax, i);
      && |kept| == |periods|
      && forall k :: 0 <= k < |kept| ==> kept[k] == PeriodRatio(tax, pretax, periods[k])
    decreases |tax| - i
  {
    if i < |tax| && i < |pretax| {
      KeptRatiosInPeriodOrder(tax, pretax, i + 1);
      var t, q := tax[i..], pretax[i..];
      assert t[1..] == tax[i + 1..] && q[1..] == pretax[i + 1..];
      assert t[0] == tax[i] && q[0] == pretax[i];
      var rest := KeptRatios(tax[i + 1..], pretax[i + 1..]);
      var restPeriods := KeptPeriodsFrom(tax, pretax, i + 1);
      if KeptRatio(tax[i], pretax[i]) {
        assert KeptRatios(t, q) == [PeriodRatio(tax, pretax, i)] + rest;
        assert KeptPeriodsFrom(tax, pretax, i) == [i] + restPeriods;
        RatiosConsPeriod(tax, pretax, i, rest, restPeriods);
      } else {
        assert KeptRatios(t, q) == rest;
        assert KeptPeriodsFrom(tax, pretax, i) == restPeriods;
      }
    }
  }

  /** Over whole rows: the kept ratios are the ratios of the kept periods,
      one per period, in period order. */
  lemma KeptRatiosByPeriod(tax: Row, pretax: Row)
    ensures var kept := KeptRatios(tax, pretax);
      var periods := KeptPeriodsFrom(tax, pretax, 0);
      && |kept| == |periods|
      && forall k :: 0 <= k < |kept| ==> kept[k] == PeriodRatio(tax, pretax, periods[k])
  {
    KeptRatiosInPeriodOrder(tax, pretax, 0);
    assert tax[0..] == tax && pretax[0..] == pretax;
  }

  /** Every kept ratio comes from some period, and every period whose ratio
      is kept contributes its ratio. */
  lemma {:induction false} KeptRatiosMembers(tax: Row, pretax: Row)
    ensures forall x :: x in KeptRatios(tax, pretax) <==>
      exists i :: 0 <= i < |tax| && i < |pretax| && KeptRatio(tax[i], pretax[i]) && x == tax[i].value / pretax[i].value
  {
    if |tax| > 0 && |pretax| > 0 {
      KeptRatiosMembers(tax[1..], pretax[1..]);
      var rest := KeptRatios(tax[1..], pretax[1..]);
      forall x | x in rest
        ensures exists i :: 0 <= i < |tax| && i < |pretax| && KeptRatio(tax[i], pretax[i]) && x == tax[i].value / pretax[i].value
      {
        var j :| 0 <= j < |tax[1..]| && j < |pretax[1..]| && KeptRatio(tax[1..][j], pretax[1..][j])
          && x == tax[1..][j].value / pretax[1..][j].value;
        assert tax[j + 1] == tax[1..][j] && pretax[j + 1] == pretax[1..][j];
      }
      forall i | 1 <= i < |tax| && i < |pretax| && KeptRatio(tax[i], pretax[i])
        ensures tax[i].value / pretax[i].value in rest
      {
        assert tax[1..][i - 1] == tax[i] && pretax[1..][i - 1] == pretax[i];
      }
    }
  }

  /** The effective tax rate estimated from the income statement: the mean of
      the kept tax/pretax ratios, or 0.25 when there are none. */
  function EstimateTaxRate(financials: Table): (r: real)
    ensures 0.0 <= r <= MaxTaxRatio
    ensures IsEmpty(financials) ==> r == DefaultTaxRate
    ensures FindRow(financials, TaxLabels).None? || FindRow(financials, PretaxLabels).None? ==> r == DefaultTaxRate
    ensures FindRow(financials, TaxLabels).Some? && FindRow(financials, PretaxLabels).Some? ==>
      var kept := KeptRatios(FindRow(financials, TaxLabels).value, FindRow(financials, PretaxLabels).value);
      if |kept| == 0 then r == DefaultTaxRate else r * |kept| as real == Sum(kept)
  {
    if IsEmpty(financials) then DefaultTaxRate
    else
      match (FindRow(financials, TaxLabels), FindRow(financials, PretaxLabels))
      case (Some(tax), Some(pretax)) =>
        var kept := KeptRatios(tax, pretax);
        if |kept| > 0 then
          MeanBounds(kept, 0.0, MaxTaxRatio);
          Mean(kept)
        else DefaultTaxRate
      case _ => DefaultTaxRate
  }

  // -------------------------------------------------------- shares, net debt

  /** Shares outstanding: the first truthy of the three share-count fields. */
  function SharesOut(info: Info): (r: Option<real>)
    ensures r.None? <==> forall i :: 0 <= i < |ShareKeys| ==> !Truthy(info, ShareKeys[i])
    ensures r.Some? ==> r.value != 0.0 && exists i :: FirstTruthyAt(info, ShareKeys, i) && r.value == info.nums[ShareKeys[i]]
  {
    FirstTruthy(info, ShareKeys)
  }

  /** The leading cell of the first matching row, with an absent row read
      as 0. `None` is a failed read: the row has no periods. */
  function LeadCellOrZero(t: Table, candidates: seq<string>): (r: Option<Option<real>>)
    ensures FindRow(t, candidates).None? ==> r == Some(Some(0.0))
    ensures FindRow(t, candidates).Some? && |FindRow(t, candidates).value| == 0 ==> r.None?
    ensures FindRow(t, candidates).Some? && |FindRow(t, candidates).value| > 0 ==>
      r == Some(FindRow(t, candidates).value[0])
  {
    match FindRow(t, candidates)
    case None => Some(Some(0.0))
    case Some(row) => if |row| == 0 then None else Some(row[0])
  }

  /** Net debt read off the balance sheet: debt minus cash, or unavailable. */
  function SheetNetDebt(balanceSheet: Table): (r: Option<real>)
    ensures IsEmpty(balanceSheet) ==> r.None?
    ensures !IsEmpty(balanceSheet) ==>
      var cash := LeadCellOrZero(balanceSheet, CashLabels);
      var debt := LeadCellOrZero(balanceSheet, DebtLabels);
      && (r.Some? <==> cash.Some? && cash.value.Some? && debt.Some? && debt.value.Some?)
      && (r.Some? ==> r.value == debt.value.value - cash.value.value)
  {
    if IsEmpty(balanceSheet) then None
    else
      match (LeadCellOrZero(balanceSheet, CashLabels), LeadCellOrZero(balanceSheet, DebtLabels))
      case (Some(Some(cash)), Some(Some(debt))) => Some(debt - cash)
      case _ => None
  }

  /** Net debt from the info fields: both totalDebt and totalCash must be truthy. */
  function InfoNetDebt(info: Info): (r: Option<real>)
    ensures r.Some? <==> Truthy(info, "totalCash") && Truthy(info, "totalDebt")
    ensures r.Some? ==> r.value + info.nums["totalCash"] == info.nums["totalDebt"]
  {
    if Truthy(info, "totalCash") && Truthy(info, "totalDebt")
    then Some(info.nums["totalDebt"] - info.nums["totalCash"])
    else None
  }

  /** Net debt, from the balance sheet when it yields a figure, else from the
      info fields, else unavailable. */
  function NetDebt(info: Info, balanceSheet: Table): (r: Option<real>)
    // a non-empty sheet with neither a cash nor a debt row gives 0
    ensures !IsEmpty(balanceSheet)
      && (forall i :: 0 <= i < |CashLabels| ==> CashLabels[i] !in balanceSheet)
      && (forall i :: 0 <= i < |DebtLabels| ==> DebtLabels[i] !in balanceSheet)
      ==> r == Some(0.0)
    // a non-empty sheet whose matched rows lead with present cells gives debt - cash
    ensures !IsEmpty(balanceSheet)
      && FindRow(balanceSheet, CashLabels).Some? && FindRow(balanceSheet, DebtLabels).Some?
      && |FindRow(balanceSheet, CashLabels).value| > 0 && FindRow(balanceSheet, CashLabels).value[0].Some?
      && |FindRow(balanceSheet, DebtLabels).value| > 0 && FindRow(balanceSheet, DebtLabels).value[0].Some?
      ==> r == Some(FindRow(balanceSheet, DebtLabels).value[0].value - FindRow(balanceSheet, CashLabels).value[0].value)
    // an empty sheet, or a matched row whose lead cell is missing, falls back to the info fields
    ensures IsEmpty(balanceSheet) ==> r == InfoNetDebt(info)
    ensures (FindRow(balanceSheet, CashLabels).Some? && |FindRow(balanceSheet, CashLabels).value| > 0
      && FindRow(balanceSheet, CashLabels).value[0].None?) ==> r == InfoNetDebt(info)
    ensures (FindRow(balanceSheet, DebtLabels).Some? && |FindRow(balanceSheet, DebtLabels).value| > 0
      && FindRow(balanceSheet, DebtLabels).value[0].None?) ==> r == InfoNetDebt(info)
    // a sheet with only a cash row, or only a debt row, reads the other as 0
    ensures !IsEmpty(balanceSheet) && FindRow(balanceSheet, DebtLabels).None?
      && FindRow(balanceSheet, CashLabels).Some?
      && |FindRow(balanceSheet, CashLabels).value| > 0 && FindRow(balanceSheet, CashLabels).value[0].Some?
      ==> r == Some(0.0 - FindRow(balanceSheet, CashLabels).value[0].value)
    ensures !IsEmpty(balanceSheet) && FindRow(balanceSheet, CashLabels).None?
      && FindRow(balanceSheet, DebtLabels).Some?
      && |FindRow(balanceSheet, DebtLabels).value| > 0 && FindRow(balanceSheet, DebtLabels).value[0].Some?
      ==> r == Some(FindRow(balanceSheet, DebtLabels).value[0].value)
    // the sheet's figure wins whenever there is one; otherwise the info fallback,
    // which needs both fields truthy
    ensures SheetNetDebt(balanceSheet).Some? ==> r == SheetNetDebt(balanceSheet)
    ensures SheetNetDebt(balanceSheet).None? ==> r == InfoNetDebt(info)
    ensures r.None? ==> !(Truthy(info, "totalCash") && Truthy(info, "totalDebt"))
  {
    var sheet := SheetNetDebt(balanceSheet);
    if sheet.Some? then sheet else InfoNetDebt(info)
  }

  // ----------------------------------------------------------- FCF history

  /** Some CapEx cell is present and negative. */
  predicate AnyNegative(capex: Row)
  {
    exists i :: 0 <= i < |capex| && capex[i].Some? && capex[i].value < 0.0
  }

  function Abs(x: real): real
  {
    if x < 0.0 then -x else x
  }

  /** OCF combined with |CapEx| period by period: added when `addCapex`,
      subtracted otherwise; a missing cell on either side gives a missing cell. */
  function CombineFcf(ocf: Row, capex: Row, addCapex: bool): (r: Row)
    ensures |r| == if |ocf| < |capex| then |ocf| else |capex|
    ensures forall i :: 0 <= i < |r| ==> (r[i].Some? <==> ocf[i].Some? && capex[i].Some?)
    ensures forall i :: 0 <= i < |r| && r[i].Some? && addCapex ==> r[i].value - ocf[i].value == Abs(capex[i].value)
    ensures forall i :: 0 <= i < |r| && r[i].Some? && !addCapex ==> ocf[i].value - r[i].value == Abs(capex[i].value)
  {
    var n := if |ocf| < |capex| then |ocf| else |capex|;
    seq(n, i requires 0 <= i < n =>
      if ocf[i].Some? && capex[i].Some?
      then Some(if addCapex then ocf[i].value + Abs(capex[i].value) else ocf[i].value - Abs(capex[i].value))
      else None)
  }

  /** The free-cash-flow history: OCF and CapEx from the cash-flow statement,
      else the income statement's "Free Cash Flow" row, else nothing. */
  function FcfSeries(financials: Table, cashflow: Table): (r: Row)
    ensures IsEmpty(cashflow) ==> r == []
    ensures !IsEmpty(cashflow) && FindRow(cashflow, OcfLabels).Some? && FindRow(cashflow, CapexLabels).Some? ==>
      var ocf := FindRow(cashflow, OcfLabels).value;
      var capex := FindRow(cashflow, CapexLabels).value;
      && |r| == (if |ocf| < |capex| then |ocf| else |capex|)
      && (forall i :: 0 <= i < |r| ==> (r[i].None? <==> ocf[i].None? || capex[i].None?))
      && forall i :: 0 <= i < |r| && ocf[i].Some? && capex[i].Some? ==>
           r[i] == Some(if AnyNegative(capex) then ocf[i].value + Abs(capex[i].value)
                        else ocf[i].value - Abs(capex[i].value))
    ensures !IsEmpty(cashflow) && (FindRow(cashflow, OcfLabels).None? || FindRow(cashflow, CapexLabels).None?) ==>
      r == if FcfLabel in financials then financials[FcfLabel] else []
  {
    if IsEmpty(cashflow) then []
    else
      match (FindRow(cashflow, OcfLabels), FindRow(cashflow, CapexLabels))
      case (Some(ocf), Some(capex)) => CombineFcf(ocf, capex, AnyNegative(capex))
      case _ =>
        if !IsEmpty(financials) && FcfLabel in financials then financials[FcfLabel] else []
  }

  // --------------------------------------------------------- growth, costs

  /** Growth over the last (up to) three values of `s`: 8% when there are
      fewer than two values or the base is not positive, else the compound rate
      from the base to the last value. `sqrt` is the square root used for
      the two-period rate. */
  function GrowthOf(s: seq<real>, sqrt: real -> real): (r: real)
    ensures |s| < 2 || s[|s| - (if |s| < 3 then |s| else 3)] <= 0.0 ==> r == DefaultGrowth
  {
    var n := |s|;
    if n < 2 then DefaultGrowth
    else
      var window := if n < 3 then n else 3;
      var first := s[n - window];
      var last := s[n - 1];
      if first <= 0.0 then DefaultGrowth
      else if window - 1 == 1 then last / first - 1.0
      else sqrt(last / first) - 1.0
  }

  /** Historical growth of an FCF history: the growth over its present values. */
  function HistoricalGrowth(series: Row, sqrt: real -> real): (r: real)
    ensures |Present(series)| < 2 ==> r == DefaultGrowth
  {
    GrowthOf(Present(series), sqrt)
  }

  /** With two values the growth rate compounds the older into the newer over
      one period. */
  lemma GrowthCompoundsOnePeriod(s: seq<real>, sqrt: real -> real)
    requires |s| == 2 && s[0] > 0.0
    ensures s[0] * (1.0 + GrowthOf(s, sqrt)) == s[1]
  {
    var g := GrowthOf(s, sqrt);
    assert 1.0 + g == s[1] / s[0];
  }

  /** With three or more values the growth rate compounds the third-last value into
      the last over two periods, wherever `sqrt` is a square root. */
  lemma GrowthCompoundsTwoPeriods(s: seq<real>, sqrt: real -> real)
    requires |s| >= 3 && s[|s| - 3] > 0.0
    requires sqrt(s[|s| - 1] / s[|s| - 3]) * sqrt(s[|s| - 1] / s[|s| - 3]) == s[|s| - 1] / s[|s| - 3]
    ensures s[|s| - 3] * Pow(1.0 + GrowthOf(s, sqrt), 2) == s[|s| - 1]
  {
    var first, last := s[|s| - 3], s[|s| - 1];
    var ratio := last / first;
    var g := GrowthOf(s, sqrt);
    assert 1.0 + g == sqrt(ratio);
    assert Pow(1.0 + g, 1) == 1.0 + g;
    assert Pow(1.0 + g, 2) == ratio;
    assert first * ratio == last;
  }

  /** Beta from the info record, 1.0 when absent or zero. */
  function Beta(info: Info): (r: real)
    ensures r != 0.0
    ensures !Truthy(info, "beta") ==> r == 1.0
    ensures Truthy(info, "beta") ==> r == info.nums["beta"]
  {
    if Truthy(info, "beta") then info.nums["beta"] else 1.0
  }

  /** Cost of equity: the risk-free rate plus beta times the equity risk
      premium plus the size premium. */
  function CostOfEquity(beta: real, riskFree: real, erp: real, sizePremium: real): (r: real)
    ensures beta == 1.0 ==> r == riskFree + erp + sizePremium
    ensures beta >= 0.0 && erp >= 0.0 && sizePremium >= 0.0 ==> r >= riskFree
  {
    assert beta >= 0.0 && erp >= 0.0 ==> beta * erp >= 0.0;
    riskFree + beta * erp + sizePremium
  }

  /** The premium over the risk-free rate is beta-scaled ERP plus size premium;
      with beta 1 at the defaults it is 12.5%. */
  lemma CostOfEquityPremium(beta: real, riskFree: real, erp: real, sizePremium: real)
    ensures CostOfEquity(beta, riskFree, erp, sizePremium) - riskFree == beta * erp + sizePremium
    ensures beta == 1.0 ==> CostOfEquity(beta, riskFree, erp, sizePremium) == riskFree + erp + sizePremium
    ensures 0.12 <= CostOfEquity(1.0, 0.07, 0.055, 0.0) <= 0.14
  {
  }

  /** Cost of debt: the risk-free rate plus 2%, unless a positive yield
      (a percentage) gives max(rf + 1%, yield / 100). */
  function CostOfDebt(info: Info, riskFree: real): (r: real)
    ensures r >= riskFree + 0.01
    ensures var y := NumOr(info, "yield", 0.0);
      if y > 0.0 then r >= y / 100.0 && (r == riskFree + 0.01 || r == y / 100.0)
      else r == riskFree + 0.02
  {
    var y := NumOr(info, "yield", 0.0);
    if y > 0.0 then
      (if riskFree + 0.01 >= y / 100.0 then riskFree + 0.01 else y / 100.0)
    else riskFree + 0.02
  }
}

=== FILE: forecast.dfy ===
/** The explicit forecast: growth fading linearly from the starting rate to the
    terminal rate, cash flows chained year on year, discount factors, present
    values and the Gordon-growth terminal value. */
module Forecast {
  import opened Reals

  /** Floor on the terminal-value denominator. */
  const TerminalFloor: real := 0.000000001

  /** Growth in forecast year `t` of `years`: `g` faded linearly towards `tg`. */
  function FadeGrowth(g: real, tg: real, t: nat, years: nat): (r: real)
    requires years > 0
    ensures t == 0 ==> r == g
    ensures t == years ==> r == tg
    ensures t <= years && g <= tg ==> g <= r <= tg
    ensures t <= years && tg <= g ==> tg <= r <= g
  {
    var f := t as real / years as real;
    assert t <= years ==> 0.0 <= f <= 1.0;
    g + (tg - g) * f
  }

  /** The fade is linear: each year moves the growth rate by the same step,
      one `years`-th of the way from `g` to `tg`. */
  lemma FadeGrowthSteps(g: real, tg: real, t: nat, years: nat)
    requires years > 0
    ensures FadeGrowth(g, tg, t + 1, years) - FadeGrowth(g, tg, t, years) == (tg - g) / years as real
  {
    var y := years as real;
    var f1 := (t + 1) as real / y;
    var f0 := t as real / y;
    assert f1 - f0 == 1.0 / y;
    assert (tg - g) * f1 - (tg - g) * f0 == (tg - g) * (f1 - f0);
  }

  /** The factor by which year `t`'s cash flow grows over the year before. */
  function GrowthFactor(g: real, tg: real, t: nat, years: nat): real
    requires years > 0
  {
    1.0 + FadeGrowth(g, tg, t, years)
  }

  /** The forecast cash flow after `t` years, grown from `base`. */
  function FcfAt(base: real, g: real, tg: real, years: nat, t: nat): real
    requires t <= years
  {
    if t == 0 then base else FcfAt(base, g, tg, years, t - 1) * GrowthFactor(g, tg, t, years)
  }

  /** The cash flows of forecast years 1..years. */
  function ForecastFcfs(base: real, g: real, tg: real, years: nat): (r: seq<real>)
    ensures |r| == years
    ensures years > 0 ==> r[0] == base * GrowthFactor(g, tg, 1, years)
    ensures forall t, u :: 0 <= t && u == t + 1 && u < years ==> r[u] == r[t] * GrowthFactor(g, tg, u + 1, years)
  {
    assert years > 0 ==> FcfAt(base, g, tg, years, 1) == base * GrowthFactor(g, tg, 1, years);
    seq(years, i requires 0 <= i < years => FcfAt(base, g, tg, years, i + 1))
  }

  /** The forecast as the source computes it: a loop carrying the previous
      year's cash flow. */
  method ForecastLoop(base: real, g: real, tg: real, years: nat) returns (fcfs: seq<real>)
    ensures fcfs == ForecastFcfs(base, g, tg, years)
  {
    fcfs := [];
    var last := base;
    var t := 1;
    while t <= years
      invariant 1 <= t <= years + 1
      invariant |fcfs| == t - 1
      invariant last == FcfAt(base, g, tg, years, t - 1)
      invariant forall k :: 0 <= k < |fcfs| ==> fcfs[k] == FcfAt(base, g, tg, years, k + 1)
    {
      var gt := FadeGrowth(g, tg, t, years);
      last := last * (1.0 + gt);
      fcfs := fcfs + [last];
      t := t + 1;
    }
  }

  /** Discount factors (1 + wacc)^t for t = 1..years. */
  function DiscountFactors(wacc: real, years: nat): (r: seq<real>)
    ensures |r| == years
    ensures years > 0 ==> r[0] == 1.0 + wacc
    ensures forall t, u :: 0 <= t && u == t + 1 && u < years ==> r[u] == r[t] * (1.0 + wacc)
    ensures 1.0 + wacc != 0.0 ==> forall t :: 0 <= t < years ==> r[t] != 0.0
  {
    PowersNonZero(1.0 + wacc, years);
    assert Pow(1.0 + wacc, 1) == 1.0 + wacc;
    seq(years, i requires 0 <= i < years => Pow(1.0 + wacc, i + 1))
  }

  lemma PowersNonZero(x: real, n: nat)
    ensures x != 0.0 ==> forall t :: 1 <= t <= n ==> Pow(x, t) != 0.0
  {
    if x != 0.0 {
      forall t | 1 <= t <= n
        ensures Pow(x, t) != 0.0
      {
        PowNonZero(x, t);
      }
    }
  }

  /** Each cash flow divided by its discount factor. */
  function PresentValues(fcfs: seq<real>, discounts: seq<real>): (r: seq<real>)
    requires |fcfs| == |discounts|
    requires forall t :: 0 <= t < |discounts| ==> discounts[t] != 0.0
    ensures |r| == |fcfs|
    ensures forall t :: 0 <= t < |r| ==> r[t] * discounts[t] == fcfs[t]
  {
    seq(|fcfs|, i requires 0 <= i < |fcfs| => fcfs[i] / discounts[i])
  }

  /** The terminal-value denominator: wacc - tg, floored at 1e-9. */
  function TerminalDenominator(wacc: real, tg: real): (r: real)
    ensures r >= TerminalFloor && r >= wacc - tg
    ensures r == TerminalFloor || r == wacc - tg
  {
    if wacc - tg > TerminalFloor then wacc - tg else TerminalFloor
  }

  /** Gordon-growth terminal value of the final forecast cash flow. */
  function TerminalValue(lastFcf: real, wacc: real, tg: real): (r: real)
    ensures r * TerminalDenominator(wacc, tg) == lastFcf * (1.0 + tg)
    ensures wacc - tg <= TerminalFloor ==> r == lastFcf * (1.0 + tg) * 1000000000.0
  {
    lastFcf * (1.0 + tg) / TerminalDenominator(wacc, tg)
  }

  /** A projection grown from `base`: the yearly cash flows, their discount
      factors and present values, the terminal value and the enterprise value. */
  datatype Projection = Projection(fcfs: seq<real>, discounts: seq<real>, pvs: seq<real>, terminalValue: real, ev: real)

  /** The projection of `years` forecast years from `base`, discounted at `wacc`. */
  function Project(base: real, g: real, wacc: real, tg: real, years: nat): (p: Projection)
    requires years > 0 && 1.0 + wacc != 0.0
    ensures |p.fcfs| == years && |p.discounts| == years && |p.pvs| == years
    ensures p.fcfs == ForecastFcfs(base, g, tg, years)
    ensures p.discounts == DiscountFactors(wacc, years)
    ensures forall t :: 0 <= t < years ==> p.pvs[t] * p.discounts[t] == p.fcfs[t]
  {
    var fcfs := ForecastFcfs(base, g, tg, years);
    var discounts := DiscountFactors(wacc, years);
    var pvs := PresentValues(fcfs, discounts);
    var tv := TerminalValue(fcfs[years - 1], wacc, tg);
    Projection(fcfs, discounts, pvs, tv, Sum(pvs) + tv / discounts[years - 1])
  }

  /** The terminal value capitalises the final year's cash flow grown once
      more at the terminal rate. */
  lemma ProjectedTerminalValue(base: real, g: real, wacc: real, tg: real, years: nat)
    requires years > 0 && 1.0 + wacc != 0.0
    ensures var p := Project(base, g, wacc, tg, years);
      p.terminalValue * TerminalDenominator(wacc, tg) == p.fcfs[years - 1] * (1.0 + tg)
  {
  }

  /** Enterprise value: the present values summed, plus the terminal value
      discounted by (1 + wacc)^years. */
  lemma ProjectedEnterpriseValue(base: real, g: real, wacc: real, tg: real, years: nat)
    requires years > 0 && 1.0 + wacc != 0.0
    ensures var p := Project(base, g, wacc, tg, years);
      p.ev == Sum(p.pvs) + p.terminalValue / Pow(1.0 + wacc, years)
  {
    var p := Project(base, g, wacc, tg, years);
    assert p.discounts[years - 1] == Pow(1.0 + wacc, years);
  }

  /** With no fade (starting growth equal to terminal growth) the forecast is
      geometric: year t's cash flow is base * (1 + g)^t. */
  lemma {:induction false} ConstantGrowthIsGeometric(base: real, g: real, years: nat, t: nat)
    requires t <= years
    ensures FcfAt(base, g, g, years, t) == base * Pow(1.0 + g, t)
  {
    if t > 0 {
      ConstantGrowthIsGeometric(base, g, years, t - 1);
      var prev := Pow(1.0 + g, t - 1);
      assert FadeGrowth(g, g, t, years) == g;
      assert FcfAt(base, g, g, years, t) == (base * prev) * (1.0 + g);
      assert Pow(1.0 + g, t) == (1.0 + g) * prev;
      assert (base * prev) * (1.0 + g) == base * ((1.0 + g) * prev);
    }
  }

  /** The forecast is linear in its base: scaling the base scales every year. */
  lemma {:induction false} ForecastScalesWithBase(base: real, k: real, g: real, tg: real, years: nat, t: nat)
    requires t <= years
    ensures FcfAt(k * base, g, tg, years, t) == k * FcfAt(base, g, tg, years, t)
  {
    if t > 0 {
      ForecastScalesWithBase(base, k, g, tg, years, t - 1);
      var f := GrowthFactor(g, tg, t, years);
      var prev := FcfAt(base, g, tg, years, t - 1);
      var prevK := FcfAt(k * base, g, tg, years, t - 1);
      assert FcfAt(k * base, g, tg, years, t) == prevK * f;
      assert prevK * f == (k * prev) * f;
      assert (k * prev) * f == k * (prev * f);
    }
  }
}

=== FILE: guardrail.dfy ===
/** The financial-sector guardrail: a company whose sector, industry or
    category text mentions a financial-services keyword is flagged, because a
    free-cash-flow valuation does not suit it. */
module BanksGuardrail {
  import opened RawData

  /** The keywords that mark a financial-services company. */
  const FinancialSectorHints: set<string> :=
    {"bank", "nbfc", "insurance", "insurer", "broker", "asset management", "mutual fund"}

  /** ASCII lower-casing of one character. */
  function LowerChar(c: char): char
  {
    if 'A' <= c <= 'Z' then (c as int + 32) as char else c
  }

  /** ASCII lower-casing of a string. */
  function Lower(s: string): (r: string)
    ensures |r| == |s|
    ensures forall i :: 0 <= i < |s| ==> r[i] == LowerChar(s[i])
  {
    seq(|s|, i requires 0 <= i < |s| => LowerChar(s[i]))
  }

  /** `p` occurs in `s` starting at position `i`. */
  ghost predicate OccursAt(p: string, s: string, i: int)
  {
    0 <= i && i + |p| <= |s| && s[i..i + |p|] == p
  }

  /** Substring search: whether `p` occurs anywhere in `s`. */
  function Contains(s: string, p: string): (r: bool)
    ensures r <==> exists i :: OccursAt(p, s, i)
    decreases |s|
  {
    if |p| <= |s| && s[..|p|] == p then
      assert OccursAt(p, s, 0);
      true
    else if |s| == 0 then
      false
    else
      ContainsShift(s, p);
      Contains(s[1..], p)
  }

  /** When `p` is not a prefix of `s`, its occurrences in `s` are those in `s[1..]`,
      shifted by one. */
  lemma ContainsShift(s: string, p: string)
    requires |s| > 0 && !(|p| <= |s| && s[..|p|] == p)
    ensures (exists i :: OccursAt(p, s[1..], i)) <==> (exists i :: OccursAt(p, s, i))
  {
    forall i | OccursAt(p, s[1..], i)
      ensures OccursAt(p, s, i + 1)
    {
      assert s[i + 1..i + 1 + |p|] == s[1..][i..i + |p|];
    }
    forall i | OccursAt(p, s, i)
      ensures OccursAt(p, s[1..], i - 1)
    {
      assert s[0..|p|] == s[..|p|];
      assert i != 0;
      assert s[1..][i - 1..i - 1 + |p|] == s[i..i + |p|];
    }
  }

  /** A text field of the info record, with an absent field read as "". */
  function Field(info: Info, key: string): string
  {
    if key in info.texts then info.texts[key] else ""
  }

  /** Lower-cased sector, industry and category, joined by single spaces. */
  function Joined(info: Info): string
  {
    Lower(Field(info, "sector")) + " " + Lower(Field(info, "industry")) + " " + Lower(Field(info, "category"))
  }

  /** Whether the company looks like a financial-services firm. */
  function LooksLikeFinancial(info: Info): (r: bool)
    ensures r <==> exists h, i :: h in FinancialSectorHints && OccursAt(h, Joined(info), i)
  {
    var text := Joined(info);
    exists h | h in FinancialSectorHints :: Contains(text, h)
  }

  /** An occurrence in one part of a concatenation is an occurrence in the whole. */
  lemma ContainsInConcat(a: string, b: string, p: string)
    ensures Contains(a, p) ==> Contains(a + b, p)
    ensures Contains(b, p) ==> Contains(a + b, p)
  {
    if Contains(a, p) {
      var i :| OccursAt(p, a, i);
      assert (a + b)[i..i + |p|] == a[i..i + |p|];
      assert OccursAt(p, a + b, i);
    }
    if Contains(b, p) {
      var i :| OccursAt(p, b, i);
      assert (a + b)[|a| + i..|a| + i + |p|] == b[i..i + |p|];
      assert OccursAt(p, a + b, |a| + i);
    }
  }

  /** A keyword in any one lower-cased field flags the company, whatever the
      other two fields say. */
  lemma SingleFieldSuffices(info: Info, key: string, h: string)
    requires key == "sector" || key == "industry" || key == "category"
    requires h in FinancialSectorHints
    requires Contains(Lower(Field(info, key)), h)
    ensures LooksLikeFinancial(info)
  {
    var s := Lower(Field(info, "sector"));
    var n := Lower(Field(info, "industry"));
    var c := Lower(Field(info, "category"));
    assert Joined(info) == s + (" " + n + " " + c);
    assert Joined(info) == (s + " " + n) + (" " + c);
    assert s + " " + n == s + (" " + n);
    assert " " + c == " " + c;
    if key == "sector" {
      ContainsInConcat(s, " " + n + " " + c, h);
      assert s + " " + n + " " + c == s + (" " + n + " " + c);
    } else if key == "industry" {
      ContainsInConcat(s + " ", n, h);
      ContainsInConcat(s + " " + n, " " + c, h);
    } else {
      ContainsInConcat(s + " " + n + " ", c, h);
    }
    assert Contains(Joined(info), h);
  }

  /** Every character of a string that `s` contains occurs in `s`. */
  lemma ContainedCharsOccur(s: string, p: string, k: int)
    requires 0 <= k < |p|
    ensures Contains(s, p) ==> p[k] in s
  {
    if Contains(s, p) {
      var i :| OccursAt(p, s, i);
      assert s[i + k] == p[k];
    }
  }

  /** A record without any of the three fields is not flagged. */
  lemma EmptyInfoIsNotFinancial()
    ensures !LooksLikeFinancial(Info(map[], map[]))
  {
    var info := Info(map[], map[]);
    assert Lower("") == "";
    assert Joined(info) == "  ";
  }

  /** Matching ignores case: sector "Banks" is flagged. */
  lemma BanksIsFinancial()
    ensures LooksLikeFinancial(Info(map[], map["sector" := "Banks"]))
  {
    var info := Info(map[], map["sector" := "Banks"]);
    assert Lower("Banks") == "banks";
    assert Lower("") == "";
    assert Joined(info) == "banks  ";
    assert OccursAt("bank", Joined(info), 0);
  }

  lemma InformationTechnologyJoined(info: Info)
    requires info == Info(map[], map["sector" := "Information Technology"])
    ensures Joined(info) == "information technology  "
  {
    assert Lower("Information Technology") == "information technology";
    assert Lower("") == "";
  }

  lemma InformationTechnologyLacksBsu()
    ensures var text := "information technology  ";
      'b' !in text && 's' !in text && 'u' !in text
  {
  }

  /** A text with no 'b', 's' or 'u' contains no keyword: each keyword has one
      of those characters. */
  lemma NoHintWithoutBsu(text: string)
    requires 'b' !in text && 's' !in text && 'u' !in text
    ensures forall h :: h in FinancialSectorHints ==> !Contains(text, h)
  {
    ContainedCharsOccur(text, "bank", 0);
    ContainedCharsOccur(text, "nbfc", 1);
    ContainedCharsOccur(text, "insurance", 2);
    ContainedCharsOccur(text, "insurer", 2);
    ContainedCharsOccur(text, "broker", 0);
    ContainedCharsOccur(text, "asset management", 1);
    ContainedCharsOccur(text, "mutual fund", 1);
  }

  /** Sector "Information Technology" contains no keyword. */
  lemma InformationTechnologyIsNotFinancial()
    ensures !LooksLikeFinancial(Info(map[], map["sector" := "Information Technology"]))
  {
    var info := Info(map[], map["sector" := "Information Technology"]);
    InformationTechnologyJoined(info);
    InformationTechnologyLacksBsu();
    NoHintWithoutBsu(Joined(info));
  }
}

=== FILE: options.dfy ===
/** Optional values and results: the model's stand-in for "not a number" and
    for the exceptions the valuation can raise. */
module Options {

  /** `None` is an unavailable figure (Python `None` or NaN). */
  datatype Option<+T> = None | Some(value: T) {

    /** The value, or `default` when unavailable. */
    function GetOr(default: T): T
    {
      match this
      case Some(v) => v
      case None => default
    }
  }

  /** Either a value or the error that stopped the computation. */
  datatype Result<+T, +E> = Ok(value: T) | Err(error: E)
}

=== FILE: rawdata.dfy ===
/** The raw data bundle's building blocks: statement tables keyed by free-text
    line-item labels, the company info record, and the ordered-candidate
    lookups used to read them. */
module RawData {
  import opened Options

  /** One line item of a statement: a value per period, in the order of the
      statement's period columns;
      `None` is a missing (NaN) cell. */
  type Row = seq<Option<real>>

  /** A financial-statement table: line-item label to its row. */
  type Table = map<string, Row>

  /** The company info record: numeric fields and text fields. A key absent
      from both maps is an absent field. */
  datatype Info = Info(nums: map<string, real>, texts: map<string, string>)

  /** A table is empty when it has no rows or no periods. */
  predicate IsEmpty(t: Table)
  {
    forall key :: key in t ==> |t[key]| == 0
  }

  /** A numeric info field is truthy when it is present and non-zero. */
  predicate Truthy(info: Info, key: string)
  {
    key in info.nums && info.nums[key] != 0.0
  }

  /** A numeric info field, or `default` when it is absent. */
  function NumOr(info: Info, key: string, default: real): real
  {
    if key in info.nums then info.nums[key] else default
  }

  /** Candidate `i` is the first of `candidates` that is a label of `t`. */
  ghost predicate FirstMatchAt(t: Table, candidates: seq<string>, i: int)
  {
    && 0 <= i < |candidates|
    && candidates[i] in t
    && forall j :: 0 <= j < i ==> candidates[j] !in t
  }

  /** The first candidate label present in the table. */
  function FirstMatch(t: Table, candidates: seq<string>): (r: Option<string>)
    ensures r.None? <==> forall i :: 0 <= i < |candidates| ==> candidates[i] !in t
    ensures r.Some? ==> exists i :: FirstMatchAt(t, candidates, i) && candidates[i] == r.value
  {
    if |candidates| == 0 then None
    else if candidates[0] in t then
      assert FirstMatchAt(t, candidates, 0);
      Some(candidates[0])
    else
      var r := FirstMatch(t, candidates[1..]);
      FirstMatchSkip(t, candidates, r);
      r
  }

  /** A match among the later candidates is the first match overall when the
      first candidate is not a label. */
  lemma FirstMatchSkip(t: Table, candidates: seq<string>, r: Option<string>)
    requires |candidates| > 0 && candidates[0] !in t
    requires r.None? <==> forall i :: 0 <= i < |candidates| - 1 ==> candidates[1..][i] !in t
    requires r.Some? ==> exists i :: FirstMatchAt(t, candidates[1..], i) && candidates[1..][i] == r.value
    ensures r.None? <==> forall i :: 0 <= i < |candidates| ==> candidates[i] !in t
    ensures r.Some? ==> exists i :: FirstMatchAt(t, candidates, i) && candidates[i] == r.value
  {
    if r.Some? {
      var i :| FirstMatchAt(t, candidates[1..], i) && candidates[1..][i] == r.value;
      assert FirstMatchAt(t, candidates, i + 1);
    } else {
      assert forall i :: 1 <= i < |candidates| ==> candidates[i] == candidates[1..][i - 1];
    }
  }

  /** The row of the first candidate label present in the table. */
  function FindRow(t: Table, candidates: seq<string>): (r: Option<Row>)
    ensures r.None? <==> forall i :: 0 <= i < |candidates| ==> candidates[i] !in t
    ensures r.Some? ==> exists i :: FirstMatchAt(t, candidates, i) && r.value == t[candidates[i]]
  {
    match FirstMatch(t, candidates)
    case None => None
    case Some(key) => Some(t[key])
  }

  /** Key `i` is the first of `keys` whose info field is truthy. */
  ghost predicate FirstTruthyAt(info: Info, keys: seq<string>, i: int)
  {
    && 0 <= i < |keys|
    && Truthy(info, keys[i])
    && forall j :: 0 <= j < i ==> !Truthy(info, keys[j])
  }

  /** The value of the first truthy info field among `keys`. */
  function FirstTruthy(info: Info, keys: seq<string>): (r: Option<real>)
    ensures r.None? <==> forall i :: 0 <= i < |keys| ==> !Truthy(info, keys[i])
    ensures r.Some? ==> r.value != 0.0
    ensures r.Some? ==> exists i :: FirstTruthyAt(info, keys, i) && r.value == info.nums[keys[i]]
  {
    if |keys| == 0 then None
    else if Truthy(info, keys[0]) then
      assert FirstTruthyAt(info, keys, 0);
      Some(info.nums[keys[0]])
    else
      var r := FirstTruthy(info, keys[1..]);
      FirstTruthySkip(info, keys, r);
      r
  }

  /** A truthy field among the later keys is the first truthy one overall when
      the first key's field is falsy. */
  lemma FirstTruthySkip(info: Info, keys: seq<string>, r: Option<real>)
    requires |keys| > 0 && !Truthy(info, keys[0])
    requires r.None? <==> forall i :: 0 <= i < |keys| - 1 ==> !Truthy(info, keys[1..][i])
    requires r.Some? ==> exists i :: FirstTruthyAt(info, keys[1..], i) && r.value == info.nums[keys[1..][i]]
    ensures r.None? <==> forall i :: 0 <= i < |keys| ==> !Truthy(info, keys[i])
    ensures r.Some? ==> exists i :: FirstTruthyAt(info, keys, i) && r.value == info.nums[keys[i]]
  {
    if r.Some? {
      var i :| FirstTruthyAt(info, keys[1..], i) && r.value == info.nums[keys[1..][i]];
      assert FirstTruthyAt(info, keys, i + 1);
    } else {
      assert forall i :: 1 <= i < |keys| ==> keys[i] == keys[1..][i - 1];
    }
  }

  /** Position `i` holds the last non-missing cell of the row. */
  ghost predicate LastPresentAt(row: Row, i: int)
  {
    && 0 <= i < |row|
    && row[i].Some?
    && forall j :: i < j < |row| ==> row[j].None?
  }

  /** Every cell of the row is missing. */
  predicate AllMissing(row: Row)
  {
    forall i :: 0 <= i < |row| ==> row[i].None?
  }

  /** The last non-missing cell of the row holds `x`. */
  ghost predicate LastPresentIs(row: Row, x: real)
  {
    exists i :: LastPresentAt(row, i) && row[i] == Some(x)
  }

  /** The row with its missing cells dropped, order kept. */
  function Present(row: Row): (r: seq<real>)
    ensures |r| <= |row|
    ensures |r| == 0 <==> AllMissing(row)
    ensures |r| > 0 ==> LastPresentIs(row, r[|r| - 1])
  {
    if |row| == 0 then []
    else
      var init := row[..|row| - 1];
      var rest := Present(init);
      PresentExtend(row, init, rest);
      if row[|row| - 1].Some? then rest + [row[|row| - 1].value] else rest
  }

  /** Extending the dropped-missing view of a row by its final cell. */
  lemma PresentExtend(row: Row, init: Row, rest: seq<real>)
    requires |row| > 0 && init == row[..|row| - 1]
    requires |rest| <= |init|
    requires |rest| == 0 <==> AllMissing(init)
    requires |rest| > 0 ==> LastPresentIs(init, rest[|rest| - 1])
    ensures var r := if row[|row| - 1].Some? then rest + [row[|row| - 1].value] else rest;
      && |r| <= |row|
      && (|r| == 0 <==> AllMissing(row))
      && (|r| > 0 ==> LastPresentIs(row, r[|r| - 1]))
  {
    var n := |row| - 1;
    assert forall i :: 0 <= i < n ==> init[i] == row[i];
    if row[n].Some? {
      assert LastPresentAt(row, n);
    } else if |rest| > 0 {
      var i :| LastPresentAt(init, i) && init[i] == Some(rest[|rest| - 1]);
      assert LastPresentAt(row, i);
    } else {
      assert forall i :: 0 <= i < n ==> init[i].None?;
    }
  }

  /** Dropping missing cells keeps exactly the present values. */
  lemma {:induction false} PresentMembers(row: Row)
    ensures forall x :: x in Present(row) <==> Some(x) in row
  {
    if |row| > 0 {
      var init := row[..|row| - 1];
      PresentMembers(init);
      assert row == init + [row[|row| - 1]];
    }
  }

  /** The positions of the row's present cells, in increasing order. */
  function PresentPeriods(row: Row): (r: seq<nat>)
    ensures forall k :: 0 <= k < |r| ==> r[k] < |row| && row[r[k]].Some?
    ensures forall j, k :: 0 <= j < k < |r| ==> r[j] < r[k]
    ensures forall p :: 0 <= p < |row| && row[p].Some? ==> p in r
  {
    if |row| == 0 then []
    else
      var init := row[..|row| - 1];
      var rest := PresentPeriods(init);
      assert forall p :: 0 <= p < |init| ==> init[p] == row[p];
      if row[|row| - 1].Some? then rest + [|row| - 1] else rest
  }

  /** Extending values that match their positions in the front `init` of a
      row by the row's final cell, when present, keeps them matched. */
  lemma ExtendMatchedCells(row: Row, init: Row, values: seq<real>, periods: seq<nat>)
    requires |row| > 0 && |init| == |row| - 1
    requires forall i :: 0 <= i < |init| ==> init[i] == row[i]
    requires |values| == |periods|
    requires forall k :: 0 <= k < |values| ==> periods[k] < |init| && init[periods[k]] == Some(values[k])
    ensures var n := |row| - 1;
      var vs := if row[n].Some? then values + [row[n].value] else values;
      var ps := if row[n].Some? then periods + [n] else periods;
      && |vs| == |ps|
      && forall k :: 0 <= k < |vs| ==> ps[k] < |row| && row[ps[k]] == Some(vs[k])
  {
    var n := |row| - 1;
    if row[n].Some? {
      var vs, ps := values + [row[n].value], periods + [n];
      forall k | 0 <= k < |vs|
        ensures ps[k] < |row| && row[ps[k]] == Some(vs[k])
      {
        if k < |values| {
          assert vs[k] == values[k] && ps[k] == periods[k];
        }
      }
    }
  }

  /** Dropping missing cells keeps one value per present cell, in row order:
      entry k is the value of the k-th present cell. */
  lemma {:induction false} PresentInRowOrder(row: Row)
    ensures var values := Present(row);
      var periods := PresentPeriods(row);
      && |values| == |periods|
      && forall k :: 0 <= k < |values| ==> row[periods[k]] == Some(values[k])
  {
    if |row| > 0 {
      var init := row[..|row| - 1];
      PresentInRowOrder(init);
      assert forall i :: 0 <= i < |init| ==> init[i] == row[i];
      ExtendMatchedCells(row, init, Present(init), PresentPeriods(init));
    }
  }

  /** The last non-missing cell of a row, if any. */
  function LastPresent(row: Row): (r: Option<real>)
    ensures r.None? <==> forall i :: 0 <= i < |row| ==> row[i].None?
    ensures r.Some? ==> exists i :: LastPresentAt(row, i) && row[i] == r
  {
    var s := Present(row);
    if |s| == 0 then None else Some(s[|s| - 1])
  }
}

=== FILE: reals.dfy ===
/** Integer powers, sums and means over exact reals. */
module Reals {

  /** `x` raised to the natural power `n`. */
  function Pow(x: real, n: nat): real
  {
    if n == 0 then 1.0 else x * Pow(x, n - 1)
  }

  lemma {:induction false} PowNonZero(x: real, n: nat)
    requires x != 0.0
    ensures Pow(x, n) != 0.0
  {
    if n > 0 {
      PowNonZero(x, n - 1);
    }
  }

  /** Sum of a sequence, accumulated from the front. */
  function Sum(s: seq<real>): real
  {
    if |s| == 0 then 0.0 else Sum(s[..|s| - 1]) + s[|s| - 1]
  }

  /** A sum of `n` values that all lie in [lo, hi] lies in [n * lo, n * hi]. */
  lemma {:induction false} SumBounds(s: seq<real>, lo: real, hi: real)
    requires forall i :: 0 <= i < |s| ==> lo <= s[i] <= hi
    ensures |s| as real * lo <= Sum(s) <= |s| as real * hi
  {
    if |s| > 0 {
      var init := s[..|s| - 1];
      assert forall i :: 0 <= i < |init| ==> init[i] == s[i];
      SumBounds(init, lo, hi);
      assert |s| as real * lo == |init| as real * lo + lo;
      assert |s| as real * hi == |init| as real * hi + hi;
    }
  }

  /** Arithmetic mean of a non-empty sequence. */
  function Mean(s: seq<real>): (r: real)
    requires |s| > 0
    ensures r * |s| as real == Sum(s)
  {
    Sum(s) / |s| as real
  }

  /** Dividing out a positive factor keeps an inequality. */
  lemma ScaleDown(a: real, b: real, n: real)
    requires n > 0.0
    requires a * n <= b * n
    ensures a <= b
  {
    assert (b - a) * n >= 0.0;
  }

  /** The mean of values that all lie in [lo, hi] lies in [lo, hi]. */
  lemma MeanBounds(s: seq<real>, lo: real, hi: real)
    requires |s| > 0
    requires forall i :: 0 <= i < |s| ==> lo <= s[i] <= hi
    ensures lo <= Mean(s) <= hi
  {
    SumBounds(s, lo, hi);
    var n := |s| as real;
    assert Mean(s) * n == Sum(s);
    ScaleDown(lo, Mean(s), n);
    ScaleDown(Mean(s), hi, n);
  }
}

=== FILE: units.dfy ===
/** Conversion between absolute currency amounts and crores (units of ten
    million), passing an unavailable amount through unchanged. */
module Units {
  import opened Options

  /** One crore. */
  const Crore: real := 10000000.0

  /** An absolute amount expressed in crores. */
  function ToCrores(amount: Option<real>): (r: Option<real>)
    ensures r.Some? <==> amount.Some?
    ensures amount.Some? ==> r.value * Crore == amount.value
  {
    match amount
    case None => None
    case Some(x) => Some(x / Crore)
  }

  /** An amount in crores expressed as an absolute amount. */
  function FromCrores(crores: Option<real>): (r: Option<real>)
    ensures r.Some? <==> crores.Some?
    ensures crores.Some? ==> r.value / Crore == crores.value
  {
    match crores
    case None => None
    case Some(y) => Some(y * Crore)
  }

  /** A zero amount is a present amount: it converts to zero both ways and
      is never taken for an unavailable one. */
  lemma ZeroIsPresent()
    ensures ToCrores(Some(0.0)) == Some(0.0)
    ensures FromCrores(Some(0.0)) == Some(0.0)
  {
  }

  lemma RoundTrip(amount: Option<real>)
    ensures FromCrores(ToCrores(amount)) == amount
    ensures ToCrores(FromCrores(amount)) == amount
  {
  }

  lemma PreservesOrder(x: real, y: real)
    requires x <= y
    ensures ToCrores(Some(x)).value <= ToCrores(Some(y)).value
    ensures FromCrores(Some(x)).value <= FromCrores(Some(y)).value
  {
  }

  lemma PreservesSign(x: real)
    ensures ToCrores(Some(x)).value < 0.0 <==> x < 0.0
    ensures ToCrores(Some(x)).value == 0.0 <==> x == 0.0
    ensures FromCrores(Some(x)).value < 0.0 <==> x < 0.0
    ensures FromCrores(Some(x)).value == 0.0 <==> x == 0.0
  {
  }
}
